=== FILE: README.md ===
# edx management commands: the group and user reconcilers

This project models the two Django management commands `manage_group` and
`manage_user` and proves properties of the model. Both commands are
idempotent reconcilers: each run brings one named group or one named user
to the state the command line describes, and writes one line to stderr per
step. `manage_group` raises a `CommandError` when a new group's name is
invalid or a permission option cannot be resolved. `manage_user` raises one
only when an existing user's email differs from the one supplied; a group
name it cannot find only gets a warning.

- `manage_group <name> [--remove] [-p app_label:model_name:codename ...]`
  does one of two things.
  - It deletes a group.
  - Or it fetches or creates the group and makes its permissions exactly
    the ones the options name. It computes what to add and what to remove
    against the group's current permissions.
  - All of this runs inside one transaction: any error undoes every write,
    including the creation of a new group.
- `manage_user <username> <email> [--remove] [--staff] [--superuser] [-g name ...]`
  does one of two things.
  - It deletes a user, guarded by an email check.
  - Or it fetches or creates the user. A new user gets an unusable
    password and the email. An existing user must already have that
    email. The command then sets both flags, writing each only when it
    changes, and makes the user's group memberships exactly the named
    groups that exist. An unknown group name only gets a warning.
  - A new user's email is set through the same `_maybe_update` helper as
    the flags, so a "Setting" line for the email is written whenever the
    email is not blank.
  - Each group added or removed gets its own "Adding" or "Removing" line.

The files:

- `results.dfy`: `Option` and `Result`.
- `lists.dfy`: the list side of the reconcilers.
  - A many-to-many relation is read back as a duplicate-free list.
  - The two list comprehensions give the add list and the remove list
    (`DiffOf`).
  - `AddAll` models the one-at-a-time `add` calls and `Without` the
    `remove` calls.
  - Both end up at the wanted set (`ApplyDiffReachesWant`).
- `strings.dfy`: Python's `str.split(sep)`, its inverse `sep.join`, and the
  field count.
- `identity.dfy`: the store both commands work on.
  - It holds the permission registry, the groups with their permission
    lists, and the users with their email, password state, flags and
    group list.
  - It also has `group.delete()` with its cascade, the `Reply` a command
    leaves behind, and `@transaction.atomic` as `Atomic`.
- `manage_group.dfy`, `manage_user.dfy`: the two commands.
  - Each is a pure function from the store and the command-line arguments
    to a `Reply`: the store afterwards, the lines written, and the error
    raised, if any.
  - Each file also has the lemmas about its command.
- `scenarios.dfy`: worked single invocations with their exact outcome.

A command's default arguments are the parameter defaults of `Handle`. Every
flag defaults to false and every list to empty, so omitting `--staff` clears
the staff flag.

## Model

| member | source | states |
|---|---|---|
| Lists.Without | edx_management_commands/management_commands/management/commands/manage_group.py:101-102 | the filtered list holds exactly the elements of the first list that are not in the second; it stays duplicate-free |
| Lists.WithoutCounts | edx_management_commands/management_commands/management/commands/manage_group.py:101-102 | the comprehension keeps every occurrence of an element it lets through and none of the others, so an element listed twice and not filtered out is kept twice |
| Lists.AddAll | edx_management_commands/management_commands/management/commands/manage_group.py:104-113 | after adding each element in turn, the relation holds the old rows and the added ones, still each once |
| Lists.DiffOfSets | edx_management_commands/management_commands/management/commands/manage_group.py:101-102 | the add list is `new - old`, the remove list is `old - new`, and the two are disjoint |
| Lists.ApplyDiffReachesWant | edx_management_commands/management_commands/management/commands/manage_group.py:101-129 | applying the adds and then the removes leaves the relation holding exactly the wanted set, with no duplicate |
| Lists.DiffOfSettled | edx_management_commands/management_commands/management/commands/manage_user.py:102-103 | when the relation already holds the wanted set, both lists are empty and applying them changes nothing |
| Strings.Split | edx_management_commands/management_commands/management/commands/manage_group.py:68 | `split(':')` always yields at least one field, and no field holds the separator |
| Strings.JoinSplit | edx_management_commands/management_commands/management/commands/manage_group.py:68 | joining the fields of a split gives back the input |
| Strings.SplitJoin | edx_management_commands/management_commands/management/commands/manage_group.py:68 | splitting a join of separator-free fields gives back the fields |
| Strings.SplitCount | edx_management_commands/management_commands/management/commands/manage_group.py:67-74 | a split yields one more field than the input has separators |
| Identity.DeleteGroup | edx_management_commands/management_commands/management/commands/manage_group.py:28 | deleting a group removes it and its membership rows; registry, users and every other field stay |
| Identity.Atomic | edx_management_commands/management_commands/management/commands/manage_group.py:34 | a body that raised is rolled back to the store before the call, and its lines and error are kept |
| ManageGroup.ParseSpec | edx_management_commands/management_commands/management/commands/manage_group.py:67-74 | an option unpacks into three fields exactly when it holds exactly two colons |
| ManageGroup.ParseSpecFormat | edx_management_commands/management_commands/management/commands/manage_group.py:67-74 | an option parses to a spec exactly when it is that spec in the `app_label:model_name:codename` format with colon-free fields |
| ManageGroup.Resolve | edx_management_commands/management_commands/management/commands/manage_group.py:67-99 | a resolved option is a registered permission, and the "Invalid permission option" error happens exactly when the option does not have three fields |
| ManageGroup.ResolveFormat | edx_management_commands/management_commands/management/commands/manage_group.py:76-99 | an option `app_label:model_name:codename` with colon-free fields resolves to the registry's permission with that codename for that model; an unknown model and an unknown codename for a known model are the two lookup errors |
| ManageGroup.ResolveAll | edx_management_commands/management_commands/management/commands/manage_group.py:65-99 | on success, one permission per option in option order; on failure, the error of the first option that does not resolve |
| ManageGroup.ResolvedAreNamed | edx_management_commands/management_commands/management/commands/manage_group.py:65-99 | the resolved list holds exactly the permissions some option names |
| ManageGroup.AddingLines | edx_management_commands/management_commands/management/commands/manage_group.py:105-112 | only "Adding" lines for this group, and one for exactly the permissions in the add list |
| ManageGroup.RemovingLines | edx_management_commands/management_commands/management/commands/manage_group.py:118-126 | only "Removing" lines for this group, and one for exactly the permissions in the remove list |
| ManageGroup.AddingInOrder | edx_management_commands/management_commands/management/commands/manage_group.py:105-112 | the "Adding" lines follow the add list one to one and in order |
| ManageGroup.AddingCount | edx_management_commands/management_commands/management/commands/manage_group.py:105-112 | a permission gets as many "Adding" lines as it has occurrences in the add list |
| ManageGroup.RemovingInOrder | edx_management_commands/management_commands/management/commands/manage_group.py:118-126 | the "Removing" lines follow the remove list one to one and in order |
| ManageGroup.DiffLines | edx_management_commands/management_commands/management/commands/manage_group.py:104-129 | every diff line is an "Adding", "Removing" or "No permissions" line about this group, and there are at least two; `DiffLinesContent` says which |
| ManageGroup.HandleRemove | edx_management_commands/management_commands/management/commands/manage_group.py:25-32 | `_handle_remove` never raises, leaves no group of that name and every other group as it was, and writes "Removed group" exactly when the group existed; a missing group leaves the store unchanged |
| ManageGroup.Sync | edx_management_commands/management_commands/management/commands/manage_group.py:40-131 | the body before the transaction decides: the group is in the store afterwards even when the body raised, users and registry are untouched, and success means every option resolved; the successful outcome is stated by `SyncedPermissions`, `DiffEvents`, `AddedPerResolved` and `NewGroupStartsEmpty` |
| ManageGroup.Handle | edx_management_commands/management_commands/management/commands/manage_group.py:34-131 | an error leaves the store as it was; a successful non-remove call leaves the group in place; a removal leaves no such group |
| ManageGroup.RemoveMissingGroup | edx_management_commands/management_commands/management/commands/manage_group.py:25-32 | removing a missing group succeeds, writes only the "skipping" line and changes nothing |
| ManageGroup.RemoveExistingGroup | edx_management_commands/management_commands/management/commands/manage_group.py:27-29 | removing an existing group deletes exactly that group and its membership rows; every other group and user field stays |
| ManageGroup.InvalidNewGroupName | edx_management_commands/management_commands/management/commands/manage_group.py:43-58 | a new group whose name fails validation raises before any line is written and leaves no group behind |
| ManageGroup.InvalidNewGroupNeedsRollback | edx_management_commands/management_commands/management/commands/manage_group.py:34-58 | the group created before validation would survive without the transaction; the rollback removes it |
| ManageGroup.HandleFails | edx_management_commands/management_commands/management/commands/manage_group.py:34-99 | the command fails exactly when a new group's name is invalid or some option does not resolve; removal never fails |
| ManageGroup.FirstBadOptionAborts | edx_management_commands/management_commands/management/commands/manage_group.py:65-99 | the first bad option decides the error: a wrong field count, an unknown model or an unknown codename; the store is left as it was |
| ManageGroup.SyncedPermissions | edx_management_commands/management_commands/management/commands/manage_group.py:99-131 | after success the group exists and holds exactly the named permissions; other groups, the users and the registry are unchanged |
| ManageGroup.DiffEvents | edx_management_commands/management_commands/management/commands/manage_group.py:101-129 | an "Adding" line for exactly the named permissions the group lacked, a "Removing" line for exactly the unnamed ones it had, never both for one permission, and each "No permissions to ..." line exactly when its list is empty |
| ManageGroup.DiffLinesMeaning | edx_management_commands/management_commands/management/commands/manage_group.py:101-129 | the diff lines of `old_permissions` towards `new_permissions` in terms of the two lists themselves |
| ManageGroup.ResolvedCount | edx_management_commands/management_commands/management/commands/manage_group.py:65-99 | an option given k times puts its permission in the resolved list at least k times |
| ManageGroup.AddedPerResolved | edx_management_commands/management_commands/management/commands/manage_group.py:99-113 | a successful call writes one "Adding" line per occurrence of a permission in the resolved list, and none for a permission the group already had |
| ManageGroup.AddedPerMention | edx_management_commands/management_commands/management/commands/manage_group.py:65-113 | an option given k times whose permission the group lacks is announced with at least k "Adding" lines |
| ManageGroup.NewGroupStartsEmpty | edx_management_commands/management_commands/management/commands/manage_group.py:40-62 | a created group starts with no permissions: "Created" first, every named permission added, none removed |
| ManageGroup.DiffLinesContent | edx_management_commands/management_commands/management/commands/manage_group.py:104-129 | the diff lines name exactly the elements of the two lists, and each "No permissions" line appears exactly when its list is empty |
| ManageGroup.Idempotent | edx_management_commands/management_commands/management/commands/manage_group.py:41-131 | a second identical call leaves the store as the first left it; after a successful sync it writes "Found existing" and the two "No permissions" lines; after a removal it skips |
| ManageGroup.SettledIsFixed | edx_management_commands/management_commands/management/commands/manage_group.py:60-129 | a group already holding exactly the named permissions is left as it is, with nothing to add or remove |
| ManageGroup.HandleKeepsConsistent | edx_management_commands/management_commands/management/commands/manage_group.py:34-131 | every branch keeps the store referentially intact: permission rows registered, memberships naming existing groups, no doubled row |
| ManageUser.MaybeUpdate | edx_management_commands/management_commands/management/commands/manage_user.py:27-39 | afterwards the attribute has the new value; the user changes, with one "Setting" line, only when the value differed; no other attribute moves |
| ManageUser.Flags | edx_management_commands/management_commands/management/commands/manage_user.py:89-90 | both flags equal the options, with a "Setting" line for a flag exactly when it changed; email, password and groups are untouched |
| ManageUser.ResolveGroups | edx_management_commands/management_commands/management/commands/manage_user.py:93-100 | the found groups are exactly the named ones that exist, the warnings are "not found" lines for exactly the named ones that do not, and each name given yields one entry, found or warned |
| ManageUser.FoundCount | edx_management_commands/management_commands/management/commands/manage_user.py:93-97 | an existing group is found once for every time it is named, and a missing one never |
| ManageUser.WarningCount | edx_management_commands/management_commands/management/commands/manage_user.py:93-100 | a missing group is warned about once for every time it is named, and an existing one never |
| ManageUser.AddingInOrder | edx_management_commands/management_commands/management/commands/manage_user.py:105-113 | the "Adding" lines follow the add list one to one and in order |
| ManageUser.AddingCount | edx_management_commands/management_commands/management/commands/manage_user.py:105-113 | a group gets as many "Adding" lines as it has occurrences in the add list |
| ManageUser.RemovingInOrder | edx_management_commands/management_commands/management/commands/manage_user.py:118-126 | the "Removing" lines follow the remove list one to one and in order |
| ManageUser.DiffLines | edx_management_commands/management_commands/management/commands/manage_user.py:105-129 | membership lines name exactly the elements of the two lists, and each "Not adding"/"Not removing" line appears exactly when its list is empty |
| ManageUser.HandleRemove | edx_management_commands/management_commands/management/commands/manage_user.py:41-69 | `_handle_remove` raises exactly when the user exists with another email, and then writes nothing and changes nothing; otherwise the user, if there was one, is gone and no other user, group or registry entry changes |
| ManageUser.Prior | edx_management_commands/management_commands/management/commands/manage_user.py:77-87 | an existing user is taken as stored after "Found existing user"; a new one gets an unusable password and the email after "Created new user" |
| ManageUser.Sync | edx_management_commands/management_commands/management/commands/manage_user.py:89-131 | the part after the email check never raises, changes neither groups nor registry nor any other user, and leaves the user with both flags as given; the outcome is stated by `RunSettles`, `MembershipEvents`, `SettingOnlyOnChange` and `NewUserCreated` |
| ManageUser.Handle | edx_management_commands/management_commands/management/commands/manage_user.py:71-131 | the command fails exactly when the user exists with another email, and then changes nothing; groups and registry are never changed |
| ManageUser.RemoveMissingUser | edx_management_commands/management_commands/management/commands/manage_user.py:59-64 | removing a missing user succeeds, writes only the "skipping" line and changes nothing |
| ManageUser.RemoveExistingUser | edx_management_commands/management_commands/management/commands/manage_user.py:41-69 | removing a user whose email differs raises and deletes nothing; with a matching email exactly that user is deleted |
| ManageUser.ExistingEmailMismatch | edx_management_commands/management_commands/management/commands/manage_user.py:83-87 | an existing user with another email is reported found and then refused, before any flag or membership changes |
| ManageUser.EmailKept | edx_management_commands/management_commands/management/commands/manage_user.py:84-86 | after success the user has the supplied email, and an existing user's stored email was never rewritten |
| ManageUser.NewUserCreated | edx_management_commands/management_commands/management/commands/manage_user.py:79-82 | a new user has an unusable password and the email; "Created" comes first, and a "Setting" line for the email appears exactly when it is not blank |
| ManageUser.FlagsSynced | edx_management_commands/management_commands/management/commands/manage_user.py:89-90 | after success both flags equal the options, and an existing user's password state is left alone |
| ManageUser.OmittedOptionsClear | edx_management_commands/management_commands/management/commands/manage_user.py:23-25 | a call naming no flag and no group clears both flags and every membership |
| ManageUser.SettingOnlyOnChange | edx_management_commands/management_commands/management/commands/manage_user.py:27-39 | a "Setting" line for a flag is written exactly when its value before the call (off for a new user) differs from the option |
| ManageUser.MembershipSynced | edx_management_commands/management_commands/management/commands/manage_user.py:93-131 | after success the user's groups are exactly the named groups that exist |
| ManageUser.UnknownGroupsWarned | edx_management_commands/management_commands/management/commands/manage_user.py:93-100 | each unknown named group gets a warning and no other name does, and the call still succeeds |
| ManageUser.OtherUsersUntouched | edx_management_commands/management_commands/management/commands/manage_user.py:71-131 | a call changes no user but the one it names, and no group |
| ManageUser.AddedPerMention | edx_management_commands/management_commands/management/commands/manage_user.py:93-114 | a group that exists and the user is not in gets one "Adding" line for every time it is named, so a group named twice is announced twice; every other group gets none |
| ManageUser.MembershipEvents | edx_management_commands/management_commands/management/commands/manage_user.py:102-129 | an "Adding" line for exactly the existing named groups the user lacked, a "Removing" line for exactly the groups it had that are unnamed or missing, and each "Not ..." line exactly when its list is empty |
| ManageUser.DiffLinesMeaning | edx_management_commands/management_commands/management/commands/manage_user.py:102-129 | the diff lines of `old` towards `new` in terms of the two lists themselves |
| ManageUser.AlreadySynced | edx_management_commands/management_commands/management/commands/manage_user.py:76-131 | a user already in the wanted state is left as it is: found, no "Setting" line, only warnings and the two "Not ..." lines |
| ManageUser.RunSettles | edx_management_commands/management_commands/management/commands/manage_user.py:76-131 | a successful non-remove call leaves its user with the email, both flags and exactly the existing named groups |
| ManageUser.Idempotent | edx_management_commands/management_commands/management/commands/manage_user.py:71-131 | a second identical call leaves the store as the first left it; after a successful sync it writes exactly "Found existing user", the unknown-group warnings and the two "Not ..." lines, so no "Setting" line and no group added or removed; after a removal it skips |
| ManageUser.MembershipNoDup | edx_management_commands/management_commands/management/commands/manage_user.py:102-127 | the user's membership list stays free of duplicates |
| ManageUser.HandleKeepsConsistent | edx_management_commands/management_commands/management/commands/manage_user.py:71-131 | every branch keeps the store referentially intact |
| Scenarios.CreateWithOnePermission | edx_management_commands/management_commands/management/commands/manage_group.py:40-131 | `manage_group name -p app:model:code` on a store without the group creates it with that one permission and writes "Created", "Adding", "No permissions to remove" |
| Scenarios.RepeatedOption | edx_management_commands/management_commands/management/commands/manage_group.py:99-113 | an option given twice writes "Adding" twice, yet the group holds the permission once |
| Scenarios.CreateStaffUser | edx_management_commands/management_commands/management/commands/manage_user.py:76-131 | `manage_user name email --staff -g group` for a new user and an existing group: the exact record and the five lines written |

## Left out

- Django's ORM, `get_or_create`, the many-to-many `add`/`remove` calls and
  the content-type machinery are replaced by the store's maps and lists. A
  relation's `.all()` order is modelled as insertion order, and `add`
  appends. Django lists a group's permissions sorted by app label, model
  and codename, and a user's groups in database order. So the "Removing"
  lines can come in a different order from the program's; which lines are
  written, and the final sets, do not depend on that order.
- `full_clean()` on a new group is the parameter `validName`. The model
  constraints behind it, such as the name's maximum length, are not part
  of this model.
- `apps.get_model` is an exact lookup of `(app_label, model_name)` in the
  registry. The Django 1.8 behaviour of matching the model name without
  regard to case is not modelled.
- How the transaction works is left out. For `manage_group` only its
  outcome is kept: an error gives back the store from before the call.
  `manage_user` is not wrapped, because its decorator sits on the class and
  not on `handle`. Its one error comes before any write.
- Messages are event values, not text. This leaves out gettext, the exact
  wording, and the text carried by the errors: `exc.messages[0]` of a
  validation error and `exc.message` of a `LookupError`. Errors carry the
  name, option, model or codename they are about.
- Argument parsing (`add_arguments`) is kept only as the defaults it
  implies. `permissions=None` and `groups=None` behave like the empty list.
- The Python 2 `except X, exc` syntax has no counterpart; the model just
  raises the error that clause raises.
- `ManageUser.Handle` and `ManageUser.HandleRemove` compare emails as
  character strings. The program runs on Python 2 (Django 1.8, per
  `setup.py`). There the stored `user.email` is `unicode` and the
  command-line email is a byte `str`. For a non-ASCII address,
  `user.email != email` at manage_user.py:49 is therefore true even for the
  same address, so the program refuses such an existing user on every run,
  and a user it has just created fails the same call a second time. This
  str/unicode mismatch is not modelled. For non-ASCII emails,
  `ManageUser.Idempotent` and `ManageUser.EmailKept` therefore promise more
  than the program does.
- `ManageGroup.Handle` and `ManageUser.Handle` look group names and
  usernames up exactly, as map keys. `Group.objects.get(name=…)`,
  `get_or_create(name=…)` and `get_or_create(username=…)` compare the way
  the database's collation does. Under a case-insensitive collation they
  would match a name written in another case, and the model does not.
- `setup.py`, `manage.py`, `views.py` and `urls.py` hold no logic and are
  not part of this model.

=== FILE: identity.dfy ===
/**
 The identity store both commands work on: the permission registry, the
 groups with their permissions, and the users with their flags and group
 memberships. Every many-to-many relation is kept as the duplicate-free
 list its `.all()` query returns.
 */
module Identity {
  import opened Lists
  import opened Results

  /** A model, named by `(app_label, model_name)`. */
  datatype ModelKey = ModelKey(appLabel: string, modelName: string)

  /** A permission row, unique by content type and codename. */
  datatype Permission = Permission(contentType: nat, codename: string)

  /** What `apps.get_model`, `ContentType.objects.get_for_model` and
      `Permission.objects.get` resolve together: for each known model,
      its permissions by codename. It is only ever read. */
  type Registry = map<ModelKey, map<string, Permission>>

  /** A user row. `usablePassword` is false once `set_unusable_password`
      has been called. */
  datatype User = User(
    email: string,
    usablePassword: bool,
    isStaff: bool,
    isSuperuser: bool,
    groups: seq<string>)

  /** Groups are keyed by their unique name, users by their unique
      username. */
  datatype Store = Store(
    registry: Registry,
    groups: map<string, seq<Permission>>,
    users: map<string, User>)

  /** `p` is a row of the permission table. */
  ghost predicate Registered(reg: Registry, p: Permission) {
    exists k, c :: k in reg && c in reg[k] && reg[k][c] == p
  }

  /** Referential integrity of the store: every relation row points at an
      existing row, and no relation row is doubled. */
  ghost predicate Consistent(s: Store) {
    && (forall g :: g in s.groups ==>
          NoDup(s.groups[g]) && forall p :: p in s.groups[g] ==> Registered(s.registry, p))
    && (forall u :: u in s.users ==>
          NoDup(s.users[u].groups) && forall g :: g in s.users[u].groups ==> g in s.groups)
  }

  /** `group.delete()`: the group goes, and with it its rows in every
      user's membership relation; nothing else changes. */
  function DeleteGroup(s: Store, groupName: string): (t: Store)
    ensures t.groups == s.groups - {groupName}
    ensures t.registry == s.registry
    ensures t.users.Keys == s.users.Keys
    ensures forall u :: u in s.users ==>
      && Elems(t.users[u].groups) == Elems(s.users[u].groups) - {groupName}
      && t.users[u].(groups := s.users[u].groups) == s.users[u]
  {
    Store(s.registry, s.groups - {groupName},
          map u | u in s.users :: s.users[u].(groups := Without(s.users[u].groups, [groupName])))
  }

  /** What one command invocation leaves behind: the store once it
      returns, the lines it wrote to stderr, and the `CommandError` it
      raised, if any. */
  datatype Reply<Event, Error> = Reply(store: Store, log: seq<Event>, error: Option<Error>)

  /** `@transaction.atomic`: a reply whose body raised is rolled back to
      the store as it was before; the lines already written stay
      written. */
  function Atomic<Event, Error>(before: Store, body: Reply<Event, Error>): (r: Reply<Event, Error>)
    ensures r.log == body.log && r.error == body.error
    ensures r.error.None? ==> r.store == body.store
    ensures r.error.Some? ==> r.store == before
  {
    if body.error.Some? then body.(store := before) else body
  }
}

=== FILE: lists.dfy ===
/**
 Lists as the reconcilers use them: a many-to-many relation read back as a
 duplicate-free list, the two list comprehensions that compute what to add
 and what to remove, and the effect of applying those two lists one
 `add`/`remove` call at a time.
 */
module Lists {

  /** No element occurs twice: a relation row exists at most once. */
  predicate NoDup<T(==,!new)>(xs: seq<T>) {
    forall i, j :: 0 <= i < j < |xs| ==> xs[i] != xs[j]
  }

  /** The set of elements of a list. */
  function Elems<T(==,!new)>(xs: seq<T>): set<T> {
    set x | x in xs
  }

  /** `[x for x in xs if x not in ys]`, order kept. */
  function Without<T(==,!new)>(xs: seq<T>, ys: seq<T>): (r: seq<T>)
    ensures forall x :: x in r <==> x in xs && x !in ys
    ensures NoDup(xs) ==> NoDup(r)
  {
    if |xs| == 0 then []
    else
      var rest := Without(xs[1..], ys);
      if xs[0] in ys then rest
      else
        assert forall x :: x in xs[1..] ==> x in xs;
        assert NoDup(xs) ==> xs[0] !in xs[1..];
        [xs[0]] + rest
  }

  /** Calls `add(a)` for every `a` of `adds` in turn on a relation whose
      rows are `rel`: a row already present is left alone, a new one is
      appended. */
  function AddAll<T(==,!new)>(rel: seq<T>, adds: seq<T>): (r: seq<T>)
    ensures forall x :: x in r <==> x in rel || x in adds
    ensures NoDup(rel) ==> NoDup(r)
    decreases |adds|
  {
    if |adds| == 0 then rel
    else
      var next := if adds[0] in rel then rel else rel + [adds[0]];
      assert forall x :: x in adds[1..] ==> x in adds;
      AddAll(next, adds[1..])
  }

  /** The two lists a reconciler computes from the rows it has and the rows
      it wants. */
  datatype Diff<T> = Diff(adds: seq<T>, removes: seq<T>)

  /** `adds` is `[w for w in want if w not in have]` and `removes` is
      `[h for h in have if h not in want]`. */
  function DiffOf<T(==,!new)>(have: seq<T>, want: seq<T>): Diff<T> {
    Diff(Without(want, have), Without(have, want))
  }

  /** The filter keeps every occurrence of an element it lets through: an
      element listed twice in `xs` and absent from `ys` is kept twice. */
  lemma {:induction false} WithoutCounts<T(!new)>(xs: seq<T>, ys: seq<T>)
    ensures forall x :: multiset(Without(xs, ys))[x] == if x in ys then 0 else multiset(xs)[x]
  {
    if |xs| > 0 {
      WithoutCounts(xs[1..], ys);
      assert xs == [xs[0]] + xs[1..];
    }
  }

  /** An element that does not occur in `before` occurs in `before + after`
      as often as in `after`. */
  lemma CountAfter<T>(before: seq<T>, after: seq<T>, x: T)
    requires x !in before
    ensures multiset(before + after)[x] == multiset(after)[x]
  {
  }

  /** When `ys` has `b` at every position where `xs` has `a`, `b` occurs
      in `ys` at least as often as `a` occurs in `xs`. */
  lemma {:induction false} PositionwiseCount<A, B>(xs: seq<A>, ys: seq<B>, a: A, b: B)
    requires |xs| == |ys|
    requires forall i :: 0 <= i < |xs| && xs[i] == a ==> ys[i] == b
    ensures multiset(ys)[b] >= multiset(xs)[a]
  {
    if |xs| > 0 {
      forall i | 0 <= i < |xs[1..]| && xs[1..][i] == a
        ensures ys[1..][i] == b
      {
        assert xs[i + 1] == a;
      }
      PositionwiseCount(xs[1..], ys[1..], a, b);
      assert multiset(xs)[a] == multiset(xs[1..])[a] + (if xs[0] == a then 1 else 0) by {
        assert xs == [xs[0]] + xs[1..];
      }
      assert multiset(ys)[b] == multiset(ys[1..])[b] + (if ys[0] == b then 1 else 0) by {
        assert ys == [ys[0]] + ys[1..];
      }
    }
  }

  /** Membership in a list of three parts, part by part. */
  lemma InParts<T>(front: seq<T>, middle: seq<T>, back: seq<T>, x: T)
    ensures x in front + middle + back <==> x in front || x in middle || x in back
  {
  }

  /** The add list is `want - have`, the remove list is `have - want`, and
      no element is in both. */
  lemma DiffOfSets<T(!new)>(have: seq<T>, want: seq<T>)
    ensures Elems(DiffOf(have, want).adds) == Elems(want) - Elems(have)
    ensures Elems(DiffOf(have, want).removes) == Elems(have) - Elems(want)
    ensures Elems(DiffOf(have, want).adds) !! Elems(DiffOf(have, want).removes)
  {
  }

  /** All additions first, then all removals, as the reconcilers do. */
  function ApplyDiff<T(==,!new)>(have: seq<T>, d: Diff<T>): seq<T> {
    Without(AddAll(have, d.adds), d.removes)
  }

  /** Applying the diff of `have` towards `want` makes the relation hold
      exactly the elements of `want`, and keeps it free of duplicates. */
  lemma ApplyDiffReachesWant<T(!new)>(have: seq<T>, want: seq<T>)
    ensures Elems(ApplyDiff(have, DiffOf(have, want))) == Elems(want)
    ensures forall x :: x in ApplyDiff(have, DiffOf(have, want)) <==> x in want
    ensures NoDup(have) ==> NoDup(ApplyDiff(have, DiffOf(have, want)))
  {
    var d := DiffOf(have, want);
    var added := AddAll(have, d.adds);
    forall x
      ensures x in Elems(ApplyDiff(have, d)) <==> x in Elems(want)
    {
      assert x in d.adds <==> x in want && x !in have;
      assert x in d.removes <==> x in have && x !in want;
      assert x in added <==> x in have || x in d.adds;
    }
    assert forall x :: x in ApplyDiff(have, d) <==> x in Elems(ApplyDiff(have, d));
    assert forall x :: x in want <==> x in Elems(want);
  }

  /** When the relation already holds exactly the wanted elements, both
      lists are empty and applying them changes nothing. */
  lemma DiffOfSettled<T(!new)>(have: seq<T>, want: seq<T>)
    requires forall x :: x in have <==> x in want
    ensures DiffOf(have, want) == Diff([], [])
    ensures ApplyDiff(have, Diff([], [])) == have
  {
    WithoutCovered(want, have);
    WithoutCovered(have, want);
    WithoutNothing(have);
  }

  /** A list is empty exactly when nothing is in it. */
  lemma EmptyIffNoElement<T(!new)>(xs: seq<T>)
    ensures xs == [] <==> forall x :: x !in xs
  {
    if xs != [] {
      assert xs[0] in xs;
    }
  }

  /** Filtering out a list that covers every element leaves nothing. */
  lemma {:induction false} WithoutCovered<T(!new)>(xs: seq<T>, ys: seq<T>)
    requires forall x :: x in xs ==> x in ys
    ensures Without(xs, ys) == []
  {
    if |xs| > 0 {
      assert forall x :: x in xs[1..] ==> x in xs;
      WithoutCovered(xs[1..], ys);
    }
  }

  /** Filtering by the empty list keeps every element in place. */
  lemma {:induction false} WithoutNothing<T(!new)>(xs: seq<T>)
    ensures Without(xs, []) == xs
  {
    if |xs| > 0 {
      WithoutNothing(xs[1..]);
      assert xs == [xs[0]] + xs[1..];
    }
  }
}

=== FILE: manage_group.dfy ===
/**
 The `manage_group` command: remove a group by name, or fetch-or-create it
 and make its permissions exactly the ones named by
 `app_label:model_name:permission_codename` options, all inside one
 transaction.
 */
module ManageGroup {
  import opened Results
  import opened Lists
  import opened Strings
  import opened Identity

  /** A `--permissions` item once split into its three fields. */
  datatype PermissionSpec = PermissionSpec(appLabel: string, modelName: string, codename: string)

  /** The `CommandError`s the command raises. */
  datatype GroupError =
    | InvalidGroupName(groupName: string)
    | InvalidPermissionOption(option: string)
    | ModelLookupFailed(model: ModelKey)
    | InvalidPermissionCodename(codename: string, model: ModelKey)

  /** The lines the command writes to stderr. */
  datatype GroupEvent =
    | RemovedGroup(groupName: string)
    | GroupNotFound(groupName: string)
    | CreatedGroup(groupName: string)
    | FoundExistingGroup(groupName: string)
    | AddingPermission(permission: Permission, groupName: string)
    | NoPermissionsToAdd(groupName: string)
    | RemovingPermission(permission: Permission, groupName: string)
    | NoPermissionsToRemove(groupName: string)

  /** The documented option format, `app_label:model_name:permission_codename`. */
  function Format(p: PermissionSpec): string {
    p.appLabel + ":" + p.modelName + ":" + p.codename
  }

  /** `app_label, model_name, codename = permission.split(':')`, where any
      other number of fields than three raises `ValueError`. */
  function ParseSpec(option: string): (r: Option<PermissionSpec>)
    ensures r.Some? <==> Count(option, ':') == 2
  {
    SplitCount(option, ':');
    var fields := Split(option, ':');
    if |fields| == 3 then Some(PermissionSpec(fields[0], fields[1], fields[2])) else None
  }

  /** An option parses to `p` exactly when it is `p` written in the
      documented format with colon-free fields. */
  lemma ParseSpecFormat(option: string, p: PermissionSpec)
    ensures ParseSpec(option) == Some(p) <==>
      && option == Format(p)
      && ':' !in p.appLabel && ':' !in p.modelName && ':' !in p.codename
  {
    var fields := [p.appLabel, p.modelName, p.codename];
    assert Join(fields, ':') == Format(p) by {
      assert fields[1..] == [p.modelName, p.codename];
      assert fields[1..][1..] == [p.codename];
      assert Join(fields[1..], ':') == p.modelName + ":" + p.codename;
      assert p.appLabel + ":" + (p.modelName + ":" + p.codename) == Format(p);
    }
    if ParseSpec(option) == Some(p) {
      JoinSplit(option, ':');
      assert Split(option, ':') == fields;
    }
    if option == Format(p) && ':' !in p.appLabel && ':' !in p.modelName && ':' !in p.codename {
      SplitJoin(fields, ':');
    }
  }

  /** Resolves one option as the loop body does: split it, look up the
      model, then the permission with that codename for the model. */
  function Resolve(reg: Registry, option: string): (r: Result<Permission, GroupError>)
    ensures r.Success? ==> Registered(reg, r.value)
    ensures r == Failure(InvalidPermissionOption(option)) <==> Count(option, ':') != 2
  {
    match ParseSpec(option)
    case None => Failure(InvalidPermissionOption(option))
    case Some(spec) =>
      var model := ModelKey(spec.appLabel, spec.modelName);
      if model !in reg then Failure(ModelLookupFailed(model))
      else if spec.codename !in reg[model] then Failure(InvalidPermissionCodename(spec.codename, model))
      else Success(reg[model][spec.codename])
  }

  /** An option in the documented format resolves to the permission with
      that codename for the model `(app_label, model_name)`, and fails on
      an unknown model or an unknown codename for a known model. */
  lemma ResolveFormat(reg: Registry, p: PermissionSpec)
    requires ':' !in p.appLabel && ':' !in p.modelName && ':' !in p.codename
    ensures var m := ModelKey(p.appLabel, p.modelName);
      && (m !in reg ==> Resolve(reg, Format(p)) == Failure(ModelLookupFailed(m)))
      && (m in reg && p.codename !in reg[m] ==>
            Resolve(reg, Format(p)) == Failure(InvalidPermissionCodename(p.codename, m)))
      && (m in reg && p.codename in reg[m] ==> Resolve(reg, Format(p)) == Success(reg[m][p.codename]))
  {
    ParseSpecFormat(Format(p), p);
  }

  /** The loop over `permissions`: the resolved permissions in option
      order, or the error of the first option that does not resolve. */
  function ResolveAll(reg: Registry, options: seq<string>): (r: Result<seq<Permission>, GroupError>)
    ensures r.Success? ==>
      && |r.value| == |options|
      && forall i :: 0 <= i < |options| ==> Resolve(reg, options[i]) == Success(r.value[i])
    ensures r.Failure? ==>
      exists i :: && 0 <= i < |options|
                  && Resolve(reg, options[i]) == Failure(r.error)
                  && forall j :: 0 <= j < i ==> Resolve(reg, options[j]).Success?
  {
    if |options| == 0 then Success([])
    else
      match Resolve(reg, options[0])
      case Failure(e) => Failure(e)
      case Success(p) =>
        match ResolveAll(reg, options[1..])
        case Failure(e) =>
          assert forall i :: 1 <= i < |options| ==> options[i] == options[1..][i - 1];
          Failure(e)
        case Success(ps) =>
          assert forall i :: 1 <= i < |options| ==> options[i] == options[1..][i - 1];
          Success([p] + ps)
  }

  /** Some option resolves to `p`. */
  ghost predicate Named(reg: Registry, options: seq<string>, p: Permission) {
    exists i :: 0 <= i < |options| && Resolve(reg, options[i]) == Success(p)
  }

  /** The group's permissions as `group.permissions.all()` lists them;
      a group that does not exist yet has none. */
  function Current(s: Store, groupName: string): seq<Permission> {
    if groupName in s.groups then s.groups[groupName] else []
  }

  /** One "Adding" line per element of the add list. */
  function AddingLines(adds: seq<Permission>, groupName: string): (r: seq<GroupEvent>)
    ensures forall e :: e in r ==> e.AddingPermission? && e.groupName == groupName
    ensures forall p :: AddingPermission(p, groupName) in r <==> p in adds
  {
    if |adds| == 0 then []
    else [AddingPermission(adds[0], groupName)] + AddingLines(adds[1..], groupName)
  }

  /** One "Removing" line per element of the remove list. */
  function RemovingLines(removes: seq<Permission>, groupName: string): (r: seq<GroupEvent>)
    ensures forall e :: e in r ==> e.RemovingPermission? && e.groupName == groupName
    ensures forall p :: RemovingPermission(p, groupName) in r <==> p in removes
  {
    if |removes| == 0 then []
    else [RemovingPermission(removes[0], groupName)] + RemovingLines(removes[1..], groupName)
  }

  /** The "Adding" lines follow the add list one to one and in order, so
      a permission listed twice is announced twice. */
  lemma {:induction false} AddingInOrder(xs: seq<Permission>, groupName: string)
    ensures |AddingLines(xs, groupName)| == |xs|
    ensures forall i :: 0 <= i < |xs| ==> AddingLines(xs, groupName)[i] == AddingPermission(xs[i], groupName)
  {
    if |xs| > 0 {
      AddingInOrder(xs[1..], groupName);
      assert forall i :: 1 <= i < |xs| ==> xs[i] == xs[1..][i - 1];
    }
  }

  /** The "Removing" lines follow the remove list one to one and in
      order. */
  lemma {:induction false} RemovingInOrder(xs: seq<Permission>, groupName: string)
    ensures |RemovingLines(xs, groupName)| == |xs|
    ensures forall i :: 0 <= i < |xs| ==> RemovingLines(xs, groupName)[i] == RemovingPermission(xs[i], groupName)
  {
    if |xs| > 0 {
      RemovingInOrder(xs[1..], groupName);
      assert forall i :: 1 <= i < |xs| ==> xs[i] == xs[1..][i - 1];
    }
  }

  /** The lines for applying a diff: each added permission, or "No
      permissions to add"; then each removed one, or "No permissions to
      remove". */
  function DiffLines(d: Diff<Permission>, groupName: string): (r: seq<GroupEvent>)
    ensures |r| >= 2
    ensures forall e :: e in r ==> e.groupName == groupName && !e.RemovedGroup? && !e.GroupNotFound?
                                   && !e.CreatedGroup? && !e.FoundExistingGroup?
  {
    (if d.adds == [] then [NoPermissionsToAdd(groupName)] else AddingLines(d.adds, groupName))
    + (if d.removes == [] then [NoPermissionsToRemove(groupName)] else RemovingLines(d.removes, groupName))
  }

  /** `_handle_remove`: delete the group if there is one. */
  function HandleRemove(s: Store, groupName: string): (r: Reply<GroupEvent, GroupError>)
    ensures r.error.None? && groupName !in r.store.groups
    ensures r.store.groups == s.groups - {groupName} && r.store.registry == s.registry
    ensures groupName !in s.groups ==> r.store == s
    ensures RemovedGroup(groupName) in r.log <==> groupName in s.groups
  {
    if groupName in s.groups then Reply(DeleteGroup(s, groupName), [RemovedGroup(groupName)], None)
    else Reply(s, [GroupNotFound(groupName)], None)
  }

  /** "Created new group" for a group that is not there yet, otherwise
      "Found existing group". */
  function FoundLine(s: Store, groupName: string): GroupEvent {
    if groupName in s.groups then FoundExistingGroup(groupName) else CreatedGroup(groupName)
  }

  /** The store with the group's permission list set to `perms`, the group
      being created if it is not there yet. */
  function WithGroup(s: Store, groupName: string, perms: seq<Permission>): Store {
    s.(groups := s.groups[groupName := perms])
  }

  /** The non-remove body of `handle`, before the transaction decides
      whether to keep its writes. `get_or_create` has already stored the
      group when the body raises, so a failed body still returns a store
      holding it. `validName` is the verdict of the model's
      `full_clean()` on a new group's name. */
  function Sync(s: Store, validName: string -> bool, groupName: string, options: seq<string>)
    : (r: Reply<GroupEvent, GroupError>)
    ensures groupName in r.store.groups
    ensures r.store.users == s.users && r.store.registry == s.registry
    ensures r.error.None? ==> ResolveAll(s.registry, options).Success?
  {
    var had := Current(s, groupName);
    if groupName !in s.groups && !validName(groupName) then
      Reply(WithGroup(s, groupName, had), [], Some(InvalidGroupName(groupName)))
    else
      match ResolveAll(s.registry, options)
      case Failure(e) => Reply(WithGroup(s, groupName, had), [FoundLine(s, groupName)], Some(e))
      case Success(wanted) =>
        var d := DiffOf(had, wanted);
        Reply(WithGroup(s, groupName, ApplyDiff(had, d)), [FoundLine(s, groupName)] + DiffLines(d, groupName), None)
  }

  /** `handle`, under `@transaction.atomic`: whatever the body wrote is
      dropped when it raises. Both command-line defaults are kept: no
      `--remove`, no `--permissions`. */
  function Handle(s: Store, validName: string -> bool, groupName: string,
                  isRemove: bool := false, permissions: seq<string> := [])
    : (r: Reply<GroupEvent, GroupError>)
    ensures r.error.Some? ==> r.store == s
    ensures r.error.None? && !isRemove ==> groupName in r.store.groups
    ensures isRemove ==> groupName !in r.store.groups
  {
    Atomic(s, if isRemove then HandleRemove(s, groupName) else Sync(s, validName, groupName, permissions))
  }

  /** The outcome of a successful non-remove call in closed form: the
      group's list becomes the diff applied to what it had, and after the
      "Created" or "Found" line come the diff lines. */
  lemma SyncOutcome(s: Store, validName: string -> bool, groupName: string, permissions: seq<string>)
    requires Handle(s, validName, groupName, false, permissions).error.None?
    ensures ResolveAll(s.registry, permissions).Success?
    ensures var d := DiffOf(Current(s, groupName), ResolveAll(s.registry, permissions).value);
      Handle(s, validName, groupName, false, permissions)
        == Reply(WithGroup(s, groupName, ApplyDiff(Current(s, groupName), d)),
                 [FoundLine(s, groupName)] + DiffLines(d, groupName), None)
  {
  }

  /** Removing a group that does not exist is a successful no-op that
      says it is skipping. */
  lemma RemoveMissingGroup(s: Store, validName: string -> bool, groupName: string, permissions: seq<string>)
    requires groupName !in s.groups
    ensures Handle(s, validName, groupName, true, permissions) == Reply(s, [GroupNotFound(groupName)], None)
  {
  }

  /** Removing an existing group deletes exactly that group together with
      its membership rows; every other group keeps its permissions and
      every user keeps everything else. */
  lemma RemoveExistingGroup(s: Store, validName: string -> bool, groupName: string, permissions: seq<string>)
    requires groupName in s.groups
    ensures var r := Handle(s, validName, groupName, true, permissions);
      && r.error.None?
      && r.log == [RemovedGroup(groupName)]
      && r.store.groups == s.groups - {groupName}
      && r.store.registry == s.registry
      && r.store.users.Keys == s.users.Keys
      && forall u :: u in s.users ==>
           && Elems(r.store.users[u].groups) == Elems(s.users[u].groups) - {groupName}
           && r.store.users[u].(groups := s.users[u].groups) == s.users[u]
  {
  }

  /** A new group whose name `full_clean()` rejects raises before any
      line is written, and the rollback leaves no group behind. */
  lemma InvalidNewGroupName(s: Store, validName: string -> bool, groupName: string, permissions: seq<string>)
    requires groupName !in s.groups && !validName(groupName)
    ensures Handle(s, validName, groupName, false, permissions)
            == Reply(s, [], Some(InvalidGroupName(groupName)))
  {
  }

  /** Without the transaction the name check would leave the created
      group in the store: the rollback is what removes it. */
  lemma InvalidNewGroupNeedsRollback(s: Store, validName: string -> bool, groupName: string, permissions: seq<string>)
    requires groupName !in s.groups && !validName(groupName)
    ensures groupName in Sync(s, validName, groupName, permissions).store.groups
    ensures groupName !in Handle(s, validName, groupName, false, permissions).store.groups
  {
  }

  /** The command fails exactly when a new group's name is invalid or
      some option does not resolve; removal never fails. */
  lemma HandleFails(s: Store, validName: string -> bool, groupName: string, isRemove: bool, permissions: seq<string>)
    ensures Handle(s, validName, groupName, isRemove, permissions).error.Some? <==>
      && !isRemove
      && ((groupName !in s.groups && !validName(groupName))
          || exists i :: 0 <= i < |permissions| && Resolve(s.registry, permissions[i]).Failure?)
  {
    if !isRemove && (groupName in s.groups || validName(groupName)) {
      var rs := ResolveAll(s.registry, permissions);
      if rs.Success? {
        forall i | 0 <= i < |permissions|
          ensures Resolve(s.registry, permissions[i]).Success?
        {
          assert Resolve(s.registry, permissions[i]) == Success(rs.value[i]);
        }
      }
    }
  }

  /** The first option that does not resolve decides the error, and the
      store is left as it was, with no newly created group. The three
      cases: not three colon-separated fields, an unknown model, an
      unknown codename for a known model. */
  lemma FirstBadOptionAborts(s: Store, validName: string -> bool, groupName: string, permissions: seq<string>, i: nat)
    requires groupName in s.groups || validName(groupName)
    requires i < |permissions|
    requires forall j :: 0 <= j < i ==> Resolve(s.registry, permissions[j]).Success?
    requires Resolve(s.registry, permissions[i]).Failure?
    ensures var r := Handle(s, validName, groupName, false, permissions);
      && r.store == s
      && r.error == Some(Resolve(s.registry, permissions[i]).error)
      && (Count(permissions[i], ':') != 2 ==> r.error == Some(InvalidPermissionOption(permissions[i])))
      && (Count(permissions[i], ':') == 2 ==>
            var spec := ParseSpec(permissions[i]).value;
            var model := ModelKey(spec.appLabel, spec.modelName);
            && (model !in s.registry ==> r.error == Some(ModelLookupFailed(model)))
            && (model in s.registry ==> r.error == Some(InvalidPermissionCodename(spec.codename, model))))
  {
  }

  /** The resolved list holds exactly the permissions some option names. */
  lemma ResolvedAreNamed(reg: Registry, options: seq<string>)
    requires ResolveAll(reg, options).Success?
    ensures forall p :: p in ResolveAll(reg, options).value <==> Named(reg, options, p)
  {
    var wanted := ResolveAll(reg, options).value;
    forall p
      ensures p in wanted <==> Named(reg, options, p)
    {
      if Named(reg, options, p) {
        var i :| 0 <= i < |options| && Resolve(reg, options[i]) == Success(p);
        assert wanted[i] == p;
      }
      if p in wanted {
        var i :| 0 <= i < |wanted| && wanted[i] == p;
        assert Resolve(reg, options[i]) == Success(p);
      }
    }
  }

  /** After a successful call the group exists and holds exactly the
      permissions the options name; nothing else in the store changes. */
  lemma SyncedPermissions(s: Store, validName: string -> bool, groupName: string, permissions: seq<string>)
    requires Handle(s, validName, groupName, false, permissions).error.None?
    ensures var r := Handle(s, validName, groupName, false, permissions);
      && groupName in r.store.groups
      && (forall p :: p in r.store.groups[groupName] <==> Named(s.registry, permissions, p))
      && r.store.groups - {groupName} == s.groups - {groupName}
      && r.store.users == s.users
      && r.store.registry == s.registry
  {
    SyncOutcome(s, validName, groupName, permissions);
    ResolvedAreNamed(s.registry, permissions);
    var wanted := ResolveAll(s.registry, permissions).value;
    var had := Current(s, groupName);
    ApplyDiffReachesWant(had, wanted);
    var now := ApplyDiff(had, DiffOf(had, wanted));
    assert WithGroup(s, groupName, now).groups - {groupName} == s.groups - {groupName};
  }

  /** The diff lines: an "Adding" line for exactly the named permissions
      the group lacked, a "Removing" line for exactly the ones it had and
      no option names, never both for one permission, and the "No
      permissions to ..." line exactly when the respective list is
      empty. */
  lemma DiffEvents(s: Store, validName: string -> bool, groupName: string, permissions: seq<string>)
    requires Handle(s, validName, groupName, false, permissions).error.None?
    ensures var r := Handle(s, validName, groupName, false, permissions);
      && (forall p :: AddingPermission(p, groupName) in r.log <==>
            Named(s.registry, permissions, p) && p !in Current(s, groupName))
      && (forall p :: RemovingPermission(p, groupName) in r.log <==>
            p in Current(s, groupName) && !Named(s.registry, permissions, p))
      && (forall p :: !(AddingPermission(p, groupName) in r.log && RemovingPermission(p, groupName) in r.log))
      && (NoPermissionsToAdd(groupName) in r.log <==>
            forall p :: Named(s.registry, permissions, p) ==> p in Current(s, groupName))
      && (NoPermissionsToRemove(groupName) in r.log <==>
            forall p :: p in Current(s, groupName) ==> Named(s.registry, permissions, p))
  {
    AddEvents(s, validName, groupName, permissions);
    RemoveEvents(s, validName, groupName, permissions);
  }

  /** The "Adding" half of `DiffEvents`. */
  lemma AddEvents(s: Store, validName: string -> bool, groupName: string, permissions: seq<string>)
    requires Handle(s, validName, groupName, false, permissions).error.None?
    ensures var r := Handle(s, validName, groupName, false, permissions);
      && (forall p :: AddingPermission(p, groupName) in r.log <==>
            Named(s.registry, permissions, p) && p !in Current(s, groupName))
      && (NoPermissionsToAdd(groupName) in r.log <==>
            forall p :: Named(s.registry, permissions, p) ==> p in Current(s, groupName))
  {
    GroupLogLines(s, validName, groupName, permissions);
    ResolvedAreNamed(s.registry, permissions);
    DiffLinesMeaning(Current(s, groupName), ResolveAll(s.registry, permissions).value, groupName);
  }

  /** The "Removing" half of `DiffEvents`. */
  lemma RemoveEvents(s: Store, validName: string -> bool, groupName: string, permissions: seq<string>)
    requires Handle(s, validName, groupName, false, permissions).error.None?
    ensures var r := Handle(s, validName, groupName, false, permissions);
      && (forall p :: RemovingPermission(p, groupName) in r.log <==>
            p in Current(s, groupName) && !Named(s.registry, permissions, p))
      && (NoPermissionsToRemove(groupName) in r.log <==>
            forall p :: p in Current(s, groupName) ==> Named(s.registry, permissions, p))
  {
    GroupLogLines(s, validName, groupName, permissions);
    ResolvedAreNamed(s.registry, permissions);
    DiffLinesMeaning(Current(s, groupName), ResolveAll(s.registry, permissions).value, groupName);
  }

  /** After the found or created line, the log is the diff lines. */
  lemma GroupLogLines(s: Store, validName: string -> bool, groupName: string, permissions: seq<string>)
    requires Handle(s, validName, groupName, false, permissions).error.None?
    ensures ResolveAll(s.registry, permissions).Success?
    ensures var log := Handle(s, validName, groupName, false, permissions).log;
      var lines := DiffLines(DiffOf(Current(s, groupName), ResolveAll(s.registry, permissions).value), groupName);
      && (forall p :: AddingPermission(p, groupName) in log <==> AddingPermission(p, groupName) in lines)
      && (forall p :: RemovingPermission(p, groupName) in log <==> RemovingPermission(p, groupName) in lines)
      && (NoPermissionsToAdd(groupName) in log <==> NoPermissionsToAdd(groupName) in lines)
      && (NoPermissionsToRemove(groupName) in log <==> NoPermissionsToRemove(groupName) in lines)
  {
    SyncOutcome(s, validName, groupName, permissions);
  }

  /** The lines for the diff of `have` towards `want`, in terms of the two
      lists. */
  lemma DiffLinesMeaning(have: seq<Permission>, want: seq<Permission>, groupName: string)
    ensures var lines := DiffLines(DiffOf(have, want), groupName);
      && (forall p :: AddingPermission(p, groupName) in lines <==> p in want && p !in have)
      && (forall p :: RemovingPermission(p, groupName) in lines <==> p in have && p !in want)
      && (NoPermissionsToAdd(groupName) in lines <==> forall p :: p in want ==> p in have)
      && (NoPermissionsToRemove(groupName) in lines <==> forall p :: p in have ==> p in want)
  {
    var d := DiffOf(have, want);
    EmptyIffNoElement(d.adds);
    EmptyIffNoElement(d.removes);
    DiffLinesContent(d, groupName);
  }

  /** A group the call creates starts with no permissions: the call says
      it created it, adds every named permission and removes none. */
  lemma NewGroupStartsEmpty(s: Store, validName: string -> bool, groupName: string, permissions: seq<string>)
    requires groupName !in s.groups
    requires Handle(s, validName, groupName, false, permissions).error.None?
    ensures var r := Handle(s, validName, groupName, false, permissions);
      && |r.log| >= 1 && r.log[0] == CreatedGroup(groupName)
      && (forall p :: AddingPermission(p, groupName) in r.log <==> Named(s.registry, permissions, p))
      && (forall p :: RemovingPermission(p, groupName) !in r.log)
      && NoPermissionsToRemove(groupName) in r.log
  {
    SyncOutcome(s, validName, groupName, permissions);
    DiffEvents(s, validName, groupName, permissions);
  }

  /** What the diff lines say, element by element. */
  lemma DiffLinesContent(d: Diff<Permission>, groupName: string)
    ensures var lines := DiffLines(d, groupName);
      && (forall p :: AddingPermission(p, groupName) in lines <==> p in d.adds)
      && (forall p :: RemovingPermission(p, groupName) in lines <==> p in d.removes)
      && (NoPermissionsToAdd(groupName) in lines <==> d.adds == [])
      && (NoPermissionsToRemove(groupName) in lines <==> d.removes == [])
  {
  }

  /** Each "Adding" line stands for one occurrence in the add list. */
  lemma {:induction false} AddingCount(xs: seq<Permission>, groupName: string, p: Permission)
    ensures multiset(AddingLines(xs, groupName))[AddingPermission(p, groupName)] == multiset(xs)[p]
  {
    if |xs| > 0 {
      AddingCount(xs[1..], groupName, p);
      assert multiset(xs)[p] == multiset(xs[1..])[p] + (if xs[0] == p then 1 else 0) by {
        assert xs == [xs[0]] + xs[1..];
      }
    }
  }

  /** The diff lines hold one "Adding" line per occurrence in the add
      list. */
  lemma DiffAddCount(d: Diff<Permission>, groupName: string, p: Permission)
    ensures multiset(DiffLines(d, groupName))[AddingPermission(p, groupName)] == multiset(d.adds)[p]
  {
    var adding := if d.adds == [] then [NoPermissionsToAdd(groupName)] else AddingLines(d.adds, groupName);
    var removing := if d.removes == [] then [NoPermissionsToRemove(groupName)] else RemovingLines(d.removes, groupName);
    assert AddingPermission(p, groupName) !in removing;
    AddingCount(d.adds, groupName, p);
    assert multiset(adding + removing) == multiset(adding) + multiset(removing);
  }

  /** An option given several times puts its permission in the resolved
      list at least as many times; other options may name the same
      permission too. */
  lemma ResolvedCount(reg: Registry, options: seq<string>, o: string)
    requires ResolveAll(reg, options).Success?
    requires Resolve(reg, o).Success?
    ensures multiset(ResolveAll(reg, options).value)[Resolve(reg, o).value] >= multiset(options)[o]
  {
    PositionwiseCount(options, ResolveAll(reg, options).value, o, Resolve(reg, o).value);
  }

  /** A successful call writes one "Adding" line for a permission per
      occurrence of it in the resolved list, unless the group already
      had it. */
  lemma AddedPerResolved(s: Store, validName: string -> bool, groupName: string, permissions: seq<string>, p: Permission)
    requires Handle(s, validName, groupName, false, permissions).error.None?
    ensures ResolveAll(s.registry, permissions).Success?
    ensures multiset(Handle(s, validName, groupName, false, permissions).log)[AddingPermission(p, groupName)]
            == if p in Current(s, groupName) then 0 else multiset(ResolveAll(s.registry, permissions).value)[p]
  {
    AddingLinesInLog(s, validName, groupName, permissions, p);
    var had := Current(s, groupName);
    var wanted := ResolveAll(s.registry, permissions).value;
    DiffAddCount(DiffOf(had, wanted), groupName, p);
    WithoutCounts(wanted, had);
  }

  /** Of the whole log of a successful call, only the diff lines can be
      "Adding" lines. */
  lemma AddingLinesInLog(s: Store, validName: string -> bool, groupName: string, permissions: seq<string>, p: Permission)
    requires Handle(s, validName, groupName, false, permissions).error.None?
    ensures ResolveAll(s.registry, permissions).Success?
    ensures var d := DiffOf(Current(s, groupName), ResolveAll(s.registry, permissions).value);
      multiset(Handle(s, validName, groupName, false, permissions).log)[AddingPermission(p, groupName)]
        == multiset(DiffLines(d, groupName))[AddingPermission(p, groupName)]
  {
    SyncOutcome(s, validName, groupName, permissions);
    var d := DiffOf(Current(s, groupName), ResolveAll(s.registry, permissions).value);
    CountAfter([FoundLine(s, groupName)], DiffLines(d, groupName), AddingPermission(p, groupName));
  }

  /** An option given k times whose permission the group lacks is
      announced with at least k "Adding" lines, though the group ends up
      holding the permission once. */
  lemma AddedPerMention(s: Store, validName: string -> bool, groupName: string, permissions: seq<string>, o: string)
    requires Handle(s, validName, groupName, false, permissions).error.None?
    requires Resolve(s.registry, o).Success? && Resolve(s.registry, o).value !in Current(s, groupName)
    ensures multiset(Handle(s, validName, groupName, false, permissions).log)[AddingPermission(Resolve(s.registry, o).value, groupName)]
            >= multiset(permissions)[o]
  {
    AddedPerResolved(s, validName, groupName, permissions, Resolve(s.registry, o).value);
    ResolvedCount(s.registry, permissions, o);
  }

  /** Running the same call again leaves the store as the first run left
      it; after a successful non-remove run the second run finds the
      group and has nothing to add and nothing to remove, and after a
      successful removal it skips. */
  lemma Idempotent(s: Store, validName: string -> bool, groupName: string, isRemove: bool, permissions: seq<string>)
    ensures var r1 := Handle(s, validName, groupName, isRemove, permissions);
      var r2 := Handle(r1.store, validName, groupName, isRemove, permissions);
      && r2.store == r1.store
      && (r1.error.None? && !isRemove ==>
            r2 == Reply(r1.store, [FoundExistingGroup(groupName), NoPermissionsToAdd(groupName),
                                   NoPermissionsToRemove(groupName)], None))
      && (isRemove ==> r2 == Reply(r1.store, [GroupNotFound(groupName)], None))
  {
    var r1 := Handle(s, validName, groupName, isRemove, permissions);
    if r1.error.None? && !isRemove {
      SyncSettles(s, validName, groupName, permissions);
      SettledIsFixed(r1.store, validName, groupName, permissions);
    }
  }

  /** After a successful non-remove call the group holds exactly the
      resolved permissions, and the registry they resolve against is the
      same. */
  lemma SyncSettles(s: Store, validName: string -> bool, groupName: string, permissions: seq<string>)
    requires Handle(s, validName, groupName, false, permissions).error.None?
    ensures var t := Handle(s, validName, groupName, false, permissions).store;
      && ResolveAll(s.registry, permissions).Success?
      && t.registry == s.registry
      && groupName in t.groups
      && forall p :: p in t.groups[groupName] <==> p in ResolveAll(s.registry, permissions).value
  {
    SyncOutcome(s, validName, groupName, permissions);
    ApplyDiffReachesWant(Current(s, groupName), ResolveAll(s.registry, permissions).value);
  }

  /** A group that already holds exactly the resolved permissions is left
      as it is: the call finds it and has nothing to add or remove. */
  lemma SettledIsFixed(t: Store, validName: string -> bool, groupName: string, permissions: seq<string>)
    requires groupName in t.groups
    requires ResolveAll(t.registry, permissions).Success?
    requires forall p :: p in t.groups[groupName] <==> p in ResolveAll(t.registry, permissions).value
    ensures Handle(t, validName, groupName, false, permissions)
            == Reply(t, [FoundExistingGroup(groupName), NoPermissionsToAdd(groupName),
                         NoPermissionsToRemove(groupName)], None)
  {
    var have := t.groups[groupName];
    var d := DiffOf(have, ResolveAll(t.registry, permissions).value);
    assert Handle(t, validName, groupName, false, permissions)
           == Reply(WithGroup(t, groupName, ApplyDiff(have, d)), [FoundLine(t, groupName)] + DiffLines(d, groupName), None);
    SettledReply(t, groupName, permissions);
  }

  /** The closed form of a call on a group that already holds exactly
      the named permissions gives back the store itself and the three
      lines. */
  lemma SettledReply(t: Store, groupName: string, permissions: seq<string>)
    requires groupName in t.groups
    requires ResolveAll(t.registry, permissions).Success?
    requires forall p :: p in t.groups[groupName] <==> p in ResolveAll(t.registry, permissions).value
    ensures var have := t.groups[groupName];
      var d := DiffOf(have, ResolveAll(t.registry, permissions).value);
      && WithGroup(t, groupName, ApplyDiff(have, d)) == t
      && [FoundLine(t, groupName)] + DiffLines(d, groupName)
         == [FoundExistingGroup(groupName), NoPermissionsToAdd(groupName), NoPermissionsToRemove(groupName)]
  {
    var have := t.groups[groupName];
    var wanted := ResolveAll(t.registry, permissions).value;
    DiffOfSettled(have, wanted);
    assert WithGroup(t, groupName, have) == t;
  }


  /** Both branches keep the store referentially intact. */
  lemma HandleKeepsConsistent(s: Store, validName: string -> bool, groupName: string, isRemove: bool, permissions: seq<string>)
    requires Consistent(s)
    ensures Consistent(Handle(s, validName, groupName, isRemove, permissions).store)
  {
    var r := Handle(s, validName, groupName, isRemove, permissions);
    if r.error.None? && !isRemove {
      var wanted := ResolveAll(s.registry, permissions).value;
      var had := Current(s, groupName);
      ApplyDiffReachesWant(had, wanted);
      var now := r.store.groups[groupName];
      assert forall p :: p in now ==> p in wanted by {
        assert forall p :: p in now ==> p in Elems(now);
      }
      forall p | p in wanted
        ensures Registered(s.registry, p)
      {
        var i :| 0 <= i < |wanted| && wanted[i] == p;
        assert Resolve(s.registry, permissions[i]) == Success(p);
      }
    }
  }
}

=== FILE: manage_user.dfy ===
/**
 The `manage_user` command: remove a user after checking the email, or
 fetch-or-create the user, keep its email, set its staff and superuser
 flags, and make its group memberships exactly the named groups that
 exist.
 */
module ManageUser {
  import opened Results
  import opened Lists
  import opened Identity

  /** The one `CommandError` the command raises: the username is taken by
      an account with another email. */
  datatype UserError = EmailMismatch(username: string)

  /** The user attributes `_maybe_update` is called on. */
  datatype Attribute = Email | IsStaff | IsSuperuser

  /** A call `_maybe_update(user, attribute, new_value)`, as attribute and
      new value. */
  datatype Change = SetEmail(email: string) | SetStaff(isStaff: bool) | SetSuperuser(isSuperuser: bool)

  /** The lines the command writes to stderr. */
  datatype UserEvent =
    | UserNotFound(username: string)
    | RemovingUser(username: string)
    | CreatedUser(username: string)
    | FoundExistingUser(username: string)
    | Setting(username: string, change: Change)
    | GroupNotFound(groupName: string)
    | AddingToGroup(username: string, groupName: string)
    | NotAddingToAnyGroups(username: string)
    | RemovingFromGroup(username: string, groupName: string)
    | NotRemovingFromAnyGroups(username: string)

  function AttributeOf(c: Change): Attribute {
    match c
    case SetEmail(_) => Email
    case SetStaff(_) => IsStaff
    case SetSuperuser(_) => IsSuperuser
  }

  /** `getattr(user, attribute) == new_value`. */
  predicate Holds(u: User, c: Change) {
    match c
    case SetEmail(e) => u.email == e
    case SetStaff(b) => u.isStaff == b
    case SetSuperuser(b) => u.isSuperuser == b
  }

  /** `setattr(user, attribute, new_value)`. */
  function Assign(u: User, c: Change): User {
    match c
    case SetEmail(e) => u.(email := e)
    case SetStaff(b) => u.(isStaff := b)
    case SetSuperuser(b) => u.(isSuperuser := b)
  }

  /** `_maybe_update`: afterwards the attribute has the new value; the
      user is written, with one "Setting" line, only when the value
      differs, and no other attribute moves. */
  function MaybeUpdate(u: User, username: string, c: Change): (r: (User, seq<UserEvent>))
    ensures Holds(r.0, c)
    ensures Holds(u, c) ==> r == (u, [])
    ensures !Holds(u, c) ==> r.1 == [Setting(username, c)]
    ensures forall c' :: AttributeOf(c') != AttributeOf(c) ==> (Holds(r.0, c') <==> Holds(u, c'))
    ensures r.0.groups == u.groups && r.0.usablePassword == u.usablePassword
  {
    if Holds(u, c) then (u, []) else (Assign(u, c), [Setting(username, c)])
  }

  /** The two `_maybe_update` calls for the flags, staff first: afterwards
      both flags equal the options, a "Setting" line is written for a flag
      exactly when its value changes, and the email, password and groups
      are untouched. */
  function Flags(u: User, username: string, isStaff: bool, isSuperuser: bool): (r: (User, seq<UserEvent>))
    ensures r.0.isStaff == isStaff && r.0.isSuperuser == isSuperuser
    ensures r.0.email == u.email && r.0.usablePassword == u.usablePassword && r.0.groups == u.groups
    ensures forall e :: e in r.1 ==> e.Setting? && e.username == username && !e.change.SetEmail?
    ensures Setting(username, SetStaff(isStaff)) in r.1 <==> u.isStaff != isStaff
    ensures Setting(username, SetSuperuser(isSuperuser)) in r.1 <==> u.isSuperuser != isSuperuser
    ensures u.isStaff == isStaff && u.isSuperuser == isSuperuser ==> r == (u, [])
  {
    var staff := MaybeUpdate(u, username, SetStaff(isStaff));
    var superuser := MaybeUpdate(staff.0, username, SetSuperuser(isSuperuser));
    assert Holds(staff.0, SetEmail(u.email));
    assert Holds(superuser.0, SetEmail(u.email));
    assert Holds(superuser.0, SetStaff(isStaff));
    assert staff.1 == [] && superuser.1 == [] ==> staff.1 + superuser.1 == [];
    (superuser.0, staff.1 + superuser.1)
  }

  /** The row `get_or_create` makes for a new username, once
      `set_unusable_password()` has run: blank email, both flags off, no
      groups. */
  function NewUser(): User {
    User("", false, false, false, [])
  }

  /** `_handle_remove`: a missing user is skipped; an existing one is
      deleted only when the email matches. */
  function HandleRemove(s: Store, username: string, email: string): (r: Reply<UserEvent, UserError>)
    ensures r.error.Some? <==> username in s.users && s.users[username].email != email
    ensures r.error.Some? ==> r.store == s && r.log == []
    ensures r.error.None? ==> r.store.users == s.users - {username}
    ensures r.store.groups == s.groups && r.store.registry == s.registry
  {
    if username !in s.users then Reply(s, [UserNotFound(username)], None)
    else if s.users[username].email != email then Reply(s, [], Some(EmailMismatch(username)))
    else Reply(s.(users := s.users - {username}), [RemovingUser(username)], None)
  }

  /** The groups the loop over `groups` finds, in order, and the warning
      it writes for each name it does not find. */
  datatype Lookup = Lookup(found: seq<string>, warnings: seq<UserEvent>)

  /** The loop over `groups`: an unknown name is warned about and
      skipped, never an error. */
  function ResolveGroups(existing: map<string, seq<Permission>>, names: seq<string>): (r: Lookup)
    ensures forall g :: g in r.found <==> g in names && g in existing
    ensures forall e :: e in r.warnings ==> e.GroupNotFound?
    ensures forall g :: GroupNotFound(g) in r.warnings <==> g in names && g !in existing
    ensures |r.found| + |r.warnings| == |names|
  {
    if |names| == 0 then Lookup([], [])
    else
      var rest := ResolveGroups(existing, names[1..]);
      assert forall g :: g in names <==> g == names[0] || g in names[1..];
      if names[0] in existing then Lookup([names[0]] + rest.found, rest.warnings)
      else Lookup(rest.found, [GroupNotFound(names[0])] + rest.warnings)
  }

  /** A name that exists is found once for every time it is named, and
      never otherwise. */
  lemma {:induction false} FoundCount(existing: map<string, seq<Permission>>, names: seq<string>, g: string)
    ensures multiset(ResolveGroups(existing, names).found)[g] == if g in existing then multiset(names)[g] else 0
  {
    if |names| > 0 {
      FoundCount(existing, names[1..], g);
      assert multiset(names)[g] == multiset(names[1..])[g] + (if names[0] == g then 1 else 0) by {
        assert names == [names[0]] + names[1..];
      }
    }
  }

  /** A name that does not exist is warned about once for every time it
      is named, and never otherwise. */
  lemma {:induction false} WarningCount(existing: map<string, seq<Permission>>, names: seq<string>, g: string)
    ensures multiset(ResolveGroups(existing, names).warnings)[GroupNotFound(g)]
            == if g in existing then 0 else multiset(names)[g]
  {
    if |names| > 0 {
      WarningCount(existing, names[1..], g);
      assert multiset(names)[g] == multiset(names[1..])[g] + (if names[0] == g then 1 else 0) by {
        assert names == [names[0]] + names[1..];
      }
    }
  }

  /** One "Adding user to group" line per element of the add list. */
  function AddingLines(username: string, adds: seq<string>): (r: seq<UserEvent>)
    ensures forall e :: e in r ==> e.AddingToGroup? && e.username == username
    ensures forall g :: AddingToGroup(username, g) in r <==> g in adds
  {
    if |adds| == 0 then []
    else [AddingToGroup(username, adds[0])] + AddingLines(username, adds[1..])
  }

  /** One "Removing user from group" line per element of the remove list. */
  function RemovingLines(username: string, removes: seq<string>): (r: seq<UserEvent>)
    ensures forall e :: e in r ==> e.RemovingFromGroup? && e.username == username
    ensures forall g :: RemovingFromGroup(username, g) in r <==> g in removes
  {
    if |removes| == 0 then []
    else [RemovingFromGroup(username, removes[0])] + RemovingLines(username, removes[1..])
  }

  /** The "Adding" lines follow the add list one to one and in order, so
      a group listed twice is announced twice. */
  lemma {:induction false} AddingInOrder(username: string, xs: seq<string>)
    ensures |AddingLines(username, xs)| == |xs|
    ensures forall i :: 0 <= i < |xs| ==> AddingLines(username, xs)[i] == AddingToGroup(username, xs[i])
  {
    if |xs| > 0 {
      AddingInOrder(username, xs[1..]);
      assert forall i :: 1 <= i < |xs| ==> xs[i] == xs[1..][i - 1];
    }
  }

  /** The "Removing" lines follow the remove list one to one and in
      order. */
  lemma {:induction false} RemovingInOrder(username: string, xs: seq<string>)
    ensures |RemovingLines(username, xs)| == |xs|
    ensures forall i :: 0 <= i < |xs| ==> RemovingLines(username, xs)[i] == RemovingFromGroup(username, xs[i])
  {
    if |xs| > 0 {
      RemovingInOrder(username, xs[1..]);
      assert forall i :: 1 <= i < |xs| ==> xs[i] == xs[1..][i - 1];
    }
  }

  /** Each "Adding user to group" line stands for one occurrence in the
      add list. */
  lemma {:induction false} AddingCount(username: string, xs: seq<string>, g: string)
    ensures multiset(AddingLines(username, xs))[AddingToGroup(username, g)] == multiset(xs)[g]
  {
    if |xs| > 0 {
      AddingCount(username, xs[1..], g);
      assert multiset(xs)[g] == multiset(xs[1..])[g] + (if xs[0] == g then 1 else 0) by {
        assert xs == [xs[0]] + xs[1..];
      }
    }
  }

  /** The four kinds of line the membership diff writes. */
  predicate MembershipLine(e: UserEvent) {
    e.AddingToGroup? || e.NotAddingToAnyGroups? || e.RemovingFromGroup? || e.NotRemovingFromAnyGroups?
  }

  /** The lines for applying a membership diff. */
  function DiffLines(username: string, d: Diff<string>): (r: seq<UserEvent>)
    ensures forall e :: e in r ==> MembershipLine(e)
    ensures forall g :: AddingToGroup(username, g) in r <==> g in d.adds
    ensures forall g :: RemovingFromGroup(username, g) in r <==> g in d.removes
    ensures NotAddingToAnyGroups(username) in r <==> d.adds == []
    ensures NotRemovingFromAnyGroups(username) in r <==> d.removes == []
  {
    (if d.adds == [] then [NotAddingToAnyGroups(username)] else AddingLines(username, d.adds))
    + (if d.removes == [] then [NotRemovingFromAnyGroups(username)] else RemovingLines(username, d.removes))
  }

  /** The user record and the lines written before the flags are looked
      at: an existing user as stored, after "Found existing user"; a new
      one with an unusable password and the email set through
      `_maybe_update`, after "Created new user". */
  function Prior(s: Store, username: string, email: string): (r: (User, seq<UserEvent>))
    ensures username in s.users ==> r == (s.users[username], [FoundExistingUser(username)])
    ensures username !in s.users ==>
      && r.0 == User(email, false, false, false, [])
      && |r.1| >= 1 && r.1[0] == CreatedUser(username)
      && (forall e :: e in r.1 ==> e == CreatedUser(username) || e == Setting(username, SetEmail(email)))
      && (Setting(username, SetEmail(email)) in r.1 <==> email != "")
  {
    if username in s.users then (s.users[username], [FoundExistingUser(username)])
    else
      var withEmail := MaybeUpdate(NewUser(), username, SetEmail(email));
      (withEmail.0, [CreatedUser(username)] + withEmail.1)
  }

  /** The part of `handle` after the email check: both flags, then the
      membership diff, then `user.save()`. `had` is `old_groups`. */
  function Sync(s: Store, username: string, prior: (User, seq<UserEvent>), had: seq<string>,
                isStaff: bool, isSuperuser: bool, names: seq<string>): (r: Reply<UserEvent, UserError>)
    ensures r.error.None?
    ensures r.store.groups == s.groups && r.store.registry == s.registry
    ensures username in r.store.users && r.store.users - {username} == s.users - {username}
    ensures r.store.users[username].isStaff == isStaff && r.store.users[username].isSuperuser == isSuperuser
  {
    var flags := Flags(prior.0, username, isStaff, isSuperuser);
    var lookup := ResolveGroups(s.groups, names);
    var d := DiffOf(had, lookup.found);
    Reply(s.(users := s.users[username := flags.0.(groups := ApplyDiff(had, d))]),
          prior.1 + flags.1 + lookup.warnings + DiffLines(username, d), None)
  }

  /** `handle`. The class-level `@transaction.atomic` does not wrap this
      method, so nothing is rolled back; the one error it raises comes
      before any write. All command-line defaults are kept: no
      `--remove`, no `--staff`, no `--superuser`, no `--groups`. */
  function Handle(s: Store, username: string, email: string, isRemove: bool := false,
                  isStaff: bool := false, isSuperuser: bool := false, groups: seq<string> := [])
    : (r: Reply<UserEvent, UserError>)
    ensures r.error.Some? <==> username in s.users && s.users[username].email != email
    ensures r.error.Some? ==> r.store == s && r.error == Some(EmailMismatch(username))
    ensures r.store.groups == s.groups && r.store.registry == s.registry
  {
    if isRemove then HandleRemove(s, username, email)
    else if username in s.users && s.users[username].email != email then
      Reply(s, [FoundExistingUser(username)], Some(EmailMismatch(username)))
    else
      var had := if username in s.users then s.users[username].groups else [];
      Sync(s, username, Prior(s, username, email), had, isStaff, isSuperuser, groups)
  }

  /** The outcome of a successful non-remove call in closed form. */
  lemma SyncOutcome(s: Store, username: string, email: string, isStaff: bool, isSuperuser: bool, groups: seq<string>)
    requires !(username in s.users && s.users[username].email != email)
    ensures var prior := Prior(s, username, email);
      var flags := Flags(prior.0, username, isStaff, isSuperuser);
      var lookup := ResolveGroups(s.groups, groups);
      var d := DiffOf(prior.0.groups, lookup.found);
      Handle(s, username, email, false, isStaff, isSuperuser, groups)
        == Reply(s.(users := s.users[username := flags.0.(groups := ApplyDiff(prior.0.groups, d))]),
                 prior.1 + flags.1 + lookup.warnings + DiffLines(username, d), None)
  {
  }

  /** Removing a username that does not exist is a successful no-op that
      says it is skipping. */
  lemma RemoveMissingUser(s: Store, username: string, email: string, isStaff: bool, isSuperuser: bool, groups: seq<string>)
    requires username !in s.users
    ensures Handle(s, username, email, true, isStaff, isSuperuser, groups)
            == Reply(s, [UserNotFound(username)], None)
  {
  }

  /** Removing an existing user is guarded by the email: on a mismatch
      the command raises and the user stays; on a match exactly that user
      is deleted. */
  lemma RemoveExistingUser(s: Store, username: string, email: string, isStaff: bool, isSuperuser: bool, groups: seq<string>)
    requires username in s.users
    ensures var r := Handle(s, username, email, true, isStaff, isSuperuser, groups);
      && (s.users[username].email != email ==> r == Reply(s, [], Some(EmailMismatch(username))))
      && (s.users[username].email == email ==>
            && r.error.None?
            && r.log == [RemovingUser(username)]
            && r.store.users == s.users - {username}
            && r.store.groups == s.groups)
  {
  }

  /** An existing user whose stored email differs is reported as found
      and then refused, before any flag or membership is touched. */
  lemma ExistingEmailMismatch(s: Store, username: string, email: string, isStaff: bool, isSuperuser: bool, groups: seq<string>)
    requires username in s.users && s.users[username].email != email
    ensures Handle(s, username, email, false, isStaff, isSuperuser, groups)
            == Reply(s, [FoundExistingUser(username)], Some(EmailMismatch(username)))
  {
  }

  /** After a successful non-remove call the user exists with the
      supplied email, and an existing user's stored email was not
      rewritten: the stored email never changes. */
  lemma EmailKept(s: Store, username: string, email: string, isStaff: bool, isSuperuser: bool, groups: seq<string>)
    requires username in s.users ==> s.users[username].email == email
    ensures var r := Handle(s, username, email, false, isStaff, isSuperuser, groups);
      && username in r.store.users
      && r.store.users[username].email == email
      && (username in s.users ==> r.store.users[username].email == s.users[username].email)
      && (username in s.users ==> Setting(username, SetEmail(email)) !in r.log)
  {
    var prior := Prior(s, username, email);
    assert (Setting(username, SetEmail(email)) in Handle(s, username, email, false, isStaff, isSuperuser, groups).log
            <==> Setting(username, SetEmail(email)) in prior.1 + Flags(prior.0, username, isStaff, isSuperuser).1) by {
      SettingSource(s, username, email, isStaff, isSuperuser, groups, SetEmail(email));
    }
    assert Handle(s, username, email, false, isStaff, isSuperuser, groups).store.users[username].email == email by {
      SyncOutcome(s, username, email, isStaff, isSuperuser, groups);
    }
  }

  /** A new user gets an unusable password and the supplied email; the
      email is set through `_maybe_update`, so a "Setting" line for it
      appears exactly when it is not blank. */
  lemma NewUserCreated(s: Store, username: string, email: string, isStaff: bool, isSuperuser: bool, groups: seq<string>)
    requires username !in s.users
    ensures var r := Handle(s, username, email, false, isStaff, isSuperuser, groups);
      && r.error.None?
      && username in r.store.users
      && !r.store.users[username].usablePassword
      && r.store.users[username].email == email
      && r.log[0] == CreatedUser(username)
      && (Setting(username, SetEmail(email)) in r.log <==> email != "")
  {
    var prior := Prior(s, username, email);
    assert (Setting(username, SetEmail(email)) in Handle(s, username, email, false, isStaff, isSuperuser, groups).log
            <==> Setting(username, SetEmail(email)) in prior.1) by {
      SettingSource(s, username, email, isStaff, isSuperuser, groups, SetEmail(email));
    }
    SyncOutcome(s, username, email, isStaff, isSuperuser, groups);
  }

  /** A "Setting" line comes from the user's creation or from the flag
      updates, never from the membership part. */
  lemma SettingSource(s: Store, username: string, email: string, isStaff: bool, isSuperuser: bool, groups: seq<string>, c: Change)
    requires username in s.users ==> s.users[username].email == email
    ensures var prior := Prior(s, username, email);
      Setting(username, c) in Handle(s, username, email, false, isStaff, isSuperuser, groups).log
      <==> Setting(username, c) in prior.1 + Flags(prior.0, username, isStaff, isSuperuser).1
  {
    var prior := Prior(s, username, email);
    var flags := Flags(prior.0, username, isStaff, isSuperuser);
    var lookup := ResolveGroups(s.groups, groups);
    var lines := DiffLines(username, DiffOf(prior.0.groups, lookup.found));
    var line := Setting(username, c);
    SyncLog(s, username, email, isStaff, isSuperuser, groups);
    assert line !in lookup.warnings;
    assert line !in lines;
    InParts(prior.1 + flags.1, lookup.warnings, lines, line);
  }

  /** After a successful non-remove call both flags equal the options;
      an existing user's password state is left alone. */
  lemma FlagsSynced(s: Store, username: string, email: string, isStaff: bool, isSuperuser: bool, groups: seq<string>)
    requires username in s.users ==> s.users[username].email == email
    ensures var r := Handle(s, username, email, false, isStaff, isSuperuser, groups);
      && r.store.users[username].isStaff == isStaff
      && r.store.users[username].isSuperuser == isSuperuser
      && (username in s.users ==> r.store.users[username].usablePassword == s.users[username].usablePassword)
  {
    SyncOutcome(s, username, email, isStaff, isSuperuser, groups);
  }

  /** Both flags and the group list default to off and empty, so a call
      that names none of them clears the flags and every membership. */
  lemma OmittedOptionsClear(s: Store, username: string, email: string)
    requires Handle(s, username, email).error.None?
    ensures var r := Handle(s, username, email);
      && !r.store.users[username].isStaff
      && !r.store.users[username].isSuperuser
      && r.store.users[username].groups == []
  {
    SyncOutcome(s, username, email, false, false, []);
    var had := Prior(s, username, email).0.groups;
    WithoutCovered(had, had);
    WithoutNothing(had);
  }

  /** A "Setting" line for a flag is written exactly when the flag's value
      before the call (off for a new user) differs from the option. */
  lemma SettingOnlyOnChange(s: Store, username: string, email: string, isStaff: bool, isSuperuser: bool, groups: seq<string>)
    requires username in s.users ==> s.users[username].email == email
    ensures var r := Handle(s, username, email, false, isStaff, isSuperuser, groups);
      var before := if username in s.users then s.users[username] else NewUser();
      && (Setting(username, SetStaff(isStaff)) in r.log <==> before.isStaff != isStaff)
      && (Setting(username, SetSuperuser(isSuperuser)) in r.log <==> before.isSuperuser != isSuperuser)
  {
    FlagLine(s, username, email, isStaff, isSuperuser, groups, SetStaff(isStaff));
    FlagLine(s, username, email, isStaff, isSuperuser, groups, SetSuperuser(isSuperuser));
  }

  /** A "Setting" line for a flag can only come from the flag updates. */
  lemma FlagLine(s: Store, username: string, email: string, isStaff: bool, isSuperuser: bool, groups: seq<string>, c: Change)
    requires username in s.users ==> s.users[username].email == email
    requires !c.SetEmail?
    ensures Setting(username, c) in Handle(s, username, email, false, isStaff, isSuperuser, groups).log
            <==> Setting(username, c) in Flags(Prior(s, username, email).0, username, isStaff, isSuperuser).1
  {
    SettingSource(s, username, email, isStaff, isSuperuser, groups, c);
    assert Setting(username, c) !in Prior(s, username, email).1;
  }

  /** After a successful non-remove call the user's groups are exactly the
      named groups that exist. */
  lemma MembershipSynced(s: Store, username: string, email: string, isStaff: bool, isSuperuser: bool, groups: seq<string>)
    requires username in s.users ==> s.users[username].email == email
    ensures var r := Handle(s, username, email, false, isStaff, isSuperuser, groups);
      forall g :: g in r.store.users[username].groups <==> g in groups && g in s.groups
  {
    SyncOutcome(s, username, email, isStaff, isSuperuser, groups);
    ApplyDiffReachesWant(Prior(s, username, email).0.groups, ResolveGroups(s.groups, groups).found);
  }

  /** Each named group that does not exist gets a "Could not find a group"
      warning, and no other name does; the call still succeeds. */
  lemma UnknownGroupsWarned(s: Store, username: string, email: string, isStaff: bool, isSuperuser: bool, groups: seq<string>)
    requires username in s.users ==> s.users[username].email == email
    ensures var r := Handle(s, username, email, false, isStaff, isSuperuser, groups);
      && r.error.None?
      && forall g :: GroupNotFound(g) in r.log <==> g in groups && g !in s.groups
  {
    forall g ensures GroupNotFound(g) in Handle(s, username, email, false, isStaff, isSuperuser, groups).log
                     <==> GroupNotFound(g) in ResolveGroups(s.groups, groups).warnings {
      WarningSource(s, username, email, isStaff, isSuperuser, groups, g);
    }
  }

  /** A warning line comes from the group lookup. */
  lemma WarningSource(s: Store, username: string, email: string, isStaff: bool, isSuperuser: bool, groups: seq<string>, g: string)
    requires username in s.users ==> s.users[username].email == email
    ensures GroupNotFound(g) in Handle(s, username, email, false, isStaff, isSuperuser, groups).log
            <==> GroupNotFound(g) in ResolveGroups(s.groups, groups).warnings
  {
    var prior := Prior(s, username, email);
    var flags := Flags(prior.0, username, isStaff, isSuperuser);
    var lookup := ResolveGroups(s.groups, groups);
    var lines := DiffLines(username, DiffOf(prior.0.groups, lookup.found));
    SyncLog(s, username, email, isStaff, isSuperuser, groups);
    NoWarningElsewhere(s, username, email, isStaff, isSuperuser, groups, g);
    InParts(prior.1 + flags.1, lookup.warnings, lines, GroupNotFound(g));
  }

  /** No line but a warning is a "not found" line. */
  lemma NoWarningElsewhere(s: Store, username: string, email: string, isStaff: bool, isSuperuser: bool, groups: seq<string>, g: string)
    ensures var prior := Prior(s, username, email);
      var lookup := ResolveGroups(s.groups, groups);
      && GroupNotFound(g) !in prior.1 + Flags(prior.0, username, isStaff, isSuperuser).1
      && GroupNotFound(g) !in DiffLines(username, DiffOf(prior.0.groups, lookup.found))
  {
    var prior := Prior(s, username, email);
    assert GroupNotFound(g) !in prior.1;
    assert GroupNotFound(g) !in Flags(prior.0, username, isStaff, isSuperuser).1;
  }

  /** A call changes no user but the one it names, and no group. */
  lemma OtherUsersUntouched(s: Store, username: string, email: string, isRemove: bool, isStaff: bool, isSuperuser: bool, groups: seq<string>)
    ensures var r := Handle(s, username, email, isRemove, isStaff, isSuperuser, groups);
      && r.store.users - {username} == s.users - {username}
      && r.store.groups == s.groups
  {
    if !isRemove && !(username in s.users && s.users[username].email != email) {
      SyncOutcome(s, username, email, isStaff, isSuperuser, groups);
    }
  }

  /** The membership diff lines: an "Adding" line for exactly the existing
      named groups the user was not in, a "Removing" line for exactly the
      groups it was in that are not named or do not exist, and the "Not
      adding"/"Not removing" line exactly when the respective list is
      empty. */
  lemma MembershipEvents(s: Store, username: string, email: string, isStaff: bool, isSuperuser: bool, groups: seq<string>)
    requires username in s.users ==> s.users[username].email == email
    ensures var r := Handle(s, username, email, false, isStaff, isSuperuser, groups);
      var had := if username in s.users then s.users[username].groups else [];
      && (forall g :: AddingToGroup(username, g) in r.log <==> g in groups && g in s.groups && g !in had)
      && (forall g :: RemovingFromGroup(username, g) in r.log <==> g in had && !(g in groups && g in s.groups))
      && (NotAddingToAnyGroups(username) in r.log <==>
            forall g :: g in groups && g in s.groups ==> g in had)
      && (NotRemovingFromAnyGroups(username) in r.log <==>
            forall g :: g in had ==> g in groups && g in s.groups)
  {
    AddEvents(s, username, email, isStaff, isSuperuser, groups);
    RemoveEvents(s, username, email, isStaff, isSuperuser, groups);
  }

  /** A group that exists and the user is not in yet gets one "Adding"
      line for every time it is named, so a group named twice is
      announced twice; every other group gets none. */
  lemma AddedPerMention(s: Store, username: string, email: string, isStaff: bool, isSuperuser: bool, groups: seq<string>, g: string)
    requires !(username in s.users && s.users[username].email != email)
    ensures var had := if username in s.users then s.users[username].groups else [];
      multiset(Handle(s, username, email, false, isStaff, isSuperuser, groups).log)[AddingToGroup(username, g)]
        == if g in s.groups && g !in had then multiset(groups)[g] else 0
  {
    var had := Prior(s, username, email).0.groups;
    assert had == if username in s.users then s.users[username].groups else [];
    var found := ResolveGroups(s.groups, groups).found;
    AddingLinesInLog(s, username, email, isStaff, isSuperuser, groups, g);
    DiffAddCount(username, DiffOf(had, found), g);
    WithoutCounts(found, had);
    FoundCount(s.groups, groups, g);
  }

  /** Of the whole log of a successful call, only the membership diff
      lines can be "Adding" lines. */
  lemma AddingLinesInLog(s: Store, username: string, email: string, isStaff: bool, isSuperuser: bool, groups: seq<string>, g: string)
    requires !(username in s.users && s.users[username].email != email)
    ensures var d := DiffOf(Prior(s, username, email).0.groups, ResolveGroups(s.groups, groups).found);
      multiset(Handle(s, username, email, false, isStaff, isSuperuser, groups).log)[AddingToGroup(username, g)]
        == multiset(DiffLines(username, d))[AddingToGroup(username, g)]
  {
    var prior := Prior(s, username, email);
    var flags := Flags(prior.0, username, isStaff, isSuperuser);
    var lookup := ResolveGroups(s.groups, groups);
    var before := prior.1 + flags.1 + lookup.warnings;
    var lines := DiffLines(username, DiffOf(prior.0.groups, lookup.found));
    SyncLog(s, username, email, isStaff, isSuperuser, groups);
    NoMembershipLineBefore(s, username, email, isStaff, isSuperuser, groups);
    CountAfter(before, lines, AddingToGroup(username, g));
  }

  /** The lines written before the membership diff are none of its four
      kinds. */
  lemma NoMembershipLineBefore(s: Store, username: string, email: string, isStaff: bool, isSuperuser: bool, groups: seq<string>)
    ensures var prior := Prior(s, username, email);
      forall e :: e in prior.1 + Flags(prior.0, username, isStaff, isSuperuser).1 + ResolveGroups(s.groups, groups).warnings
                  ==> !MembershipLine(e)
  {
  }

  /** The log of a successful call: the prior lines, the flag lines,
      the warnings, then the membership diff lines. */
  lemma SyncLog(s: Store, username: string, email: string, isStaff: bool, isSuperuser: bool, groups: seq<string>)
    requires !(username in s.users && s.users[username].email != email)
    ensures var prior := Prior(s, username, email);
      var lookup := ResolveGroups(s.groups, groups);
      Handle(s, username, email, false, isStaff, isSuperuser, groups).log
        == prior.1 + Flags(prior.0, username, isStaff, isSuperuser).1 + lookup.warnings
           + DiffLines(username, DiffOf(prior.0.groups, lookup.found))
  {
    SyncOutcome(s, username, email, isStaff, isSuperuser, groups);
  }

  /** The membership diff lines hold one "Adding" line per occurrence in
      the add list. */
  lemma DiffAddCount(username: string, d: Diff<string>, g: string)
    ensures multiset(DiffLines(username, d))[AddingToGroup(username, g)] == multiset(d.adds)[g]
  {
    var removing := if d.removes == [] then [NotRemovingFromAnyGroups(username)] else RemovingLines(username, d.removes);
    assert AddingToGroup(username, g) !in removing;
    AddingCount(username, d.adds, g);
  }

  /** The "Adding" half of `MembershipEvents`. */
  lemma AddEvents(s: Store, username: string, email: string, isStaff: bool, isSuperuser: bool, groups: seq<string>)
    requires username in s.users ==> s.users[username].email == email
    ensures var r := Handle(s, username, email, false, isStaff, isSuperuser, groups);
      var had := if username in s.users then s.users[username].groups else [];
      && (forall g :: AddingToGroup(username, g) in r.log <==> g in groups && g in s.groups && g !in had)
      && (NotAddingToAnyGroups(username) in r.log <==>
            forall g :: g in groups && g in s.groups ==> g in had)
  {
    var had := Prior(s, username, email).0.groups;
    var found := ResolveGroups(s.groups, groups).found;
    assert had == if username in s.users then s.users[username].groups else [];
    MembershipLog(s, username, email, isStaff, isSuperuser, groups);
    DiffLinesMeaning(username, had, found);
    assert (forall g :: g in found ==> g in had) <==> (forall g :: g in groups && g in s.groups ==> g in had);
  }

  /** The "Removing" half of `MembershipEvents`. */
  lemma RemoveEvents(s: Store, username: string, email: string, isStaff: bool, isSuperuser: bool, groups: seq<string>)
    requires username in s.users ==> s.users[username].email == email
    ensures var r := Handle(s, username, email, false, isStaff, isSuperuser, groups);
      var had := if username in s.users then s.users[username].groups else [];
      && (forall g :: RemovingFromGroup(username, g) in r.log <==> g in had && !(g in groups && g in s.groups))
      && (NotRemovingFromAnyGroups(username) in r.log <==>
            forall g :: g in had ==> g in groups && g in s.groups)
  {
    var had := Prior(s, username, email).0.groups;
    var found := ResolveGroups(s.groups, groups).found;
    assert had == if username in s.users then s.users[username].groups else [];
    MembershipLog(s, username, email, isStaff, isSuperuser, groups);
    DiffLinesMeaning(username, had, found);
    assert (forall g :: g in had ==> g in found) <==> (forall g :: g in had ==> g in groups && g in s.groups);
  }

  /** Every line about memberships in the log, read off the membership
      diff. */
  lemma MembershipLog(s: Store, username: string, email: string, isStaff: bool, isSuperuser: bool, groups: seq<string>)
    requires username in s.users ==> s.users[username].email == email
    ensures var log := Handle(s, username, email, false, isStaff, isSuperuser, groups).log;
      var lines := DiffLines(username, DiffOf(Prior(s, username, email).0.groups, ResolveGroups(s.groups, groups).found));
      && (forall g :: AddingToGroup(username, g) in log <==> AddingToGroup(username, g) in lines)
      && (forall g :: RemovingFromGroup(username, g) in log <==> RemovingFromGroup(username, g) in lines)
      && (NotAddingToAnyGroups(username) in log <==> NotAddingToAnyGroups(username) in lines)
      && (NotRemovingFromAnyGroups(username) in log <==> NotRemovingFromAnyGroups(username) in lines)
  {
    forall g ensures AddingToGroup(username, g) in Handle(s, username, email, false, isStaff, isSuperuser, groups).log
                     <==> AddingToGroup(username, g) in DiffLines(username, DiffOf(Prior(s, username, email).0.groups, ResolveGroups(s.groups, groups).found)) {
      MembershipSource(s, username, email, isStaff, isSuperuser, groups, AddingToGroup(username, g));
    }
    forall g ensures RemovingFromGroup(username, g) in Handle(s, username, email, false, isStaff, isSuperuser, groups).log
                     <==> RemovingFromGroup(username, g) in DiffLines(username, DiffOf(Prior(s, username, email).0.groups, ResolveGroups(s.groups, groups).found)) {
      MembershipSource(s, username, email, isStaff, isSuperuser, groups, RemovingFromGroup(username, g));
    }
    MembershipSource(s, username, email, isStaff, isSuperuser, groups, NotAddingToAnyGroups(username));
    MembershipSource(s, username, email, isStaff, isSuperuser, groups, NotRemovingFromAnyGroups(username));
  }

  /** A line about memberships comes from the membership diff. */
  lemma MembershipSource(s: Store, username: string, email: string, isStaff: bool, isSuperuser: bool, groups: seq<string>,
                         e: UserEvent)
    requires username in s.users ==> s.users[username].email == email
    requires MembershipLine(e)
    ensures e in Handle(s, username, email, false, isStaff, isSuperuser, groups).log
            <==> e in DiffLines(username, DiffOf(Prior(s, username, email).0.groups, ResolveGroups(s.groups, groups).found))
  {
    var prior := Prior(s, username, email);
    var flags := Flags(prior.0, username, isStaff, isSuperuser);
    var lookup := ResolveGroups(s.groups, groups);
    var lines := DiffLines(username, DiffOf(prior.0.groups, lookup.found));
    SyncLog(s, username, email, isStaff, isSuperuser, groups);
    NoMembershipLineBefore(s, username, email, isStaff, isSuperuser, groups);
    assert e !in prior.1 + flags.1 + lookup.warnings;
    InParts(prior.1 + flags.1 + lookup.warnings, lines, [], e);
    assert prior.1 + flags.1 + lookup.warnings + lines + [] == prior.1 + flags.1 + lookup.warnings + lines;
  }

  /** The lines for the diff of `have` towards `want`, in terms of the two
      lists. */
  lemma DiffLinesMeaning(username: string, have: seq<string>, want: seq<string>)
    ensures var lines := DiffLines(username, DiffOf(have, want));
      && (forall g :: AddingToGroup(username, g) in lines <==> g in want && g !in have)
      && (forall g :: RemovingFromGroup(username, g) in lines <==> g in have && g !in want)
      && (NotAddingToAnyGroups(username) in lines <==> forall g :: g in want ==> g in have)
      && (NotRemovingFromAnyGroups(username) in lines <==> forall g :: g in have ==> g in want)
  {
    var d := DiffOf(have, want);
    EmptyIffNoElement(d.adds);
    EmptyIffNoElement(d.removes);
  }

  /** The user exists with the email, both flags and exactly the named
      groups that exist. */
  ghost predicate Settled(t: Store, username: string, email: string, isStaff: bool, isSuperuser: bool, groups: seq<string>) {
    && username in t.users
    && t.users[username].email == email
    && t.users[username].isStaff == isStaff && t.users[username].isSuperuser == isSuperuser
    && forall g :: g in t.users[username].groups <==> g in groups && g in t.groups
  }

  /** A successful non-remove call leaves its user settled. */
  lemma RunSettles(s: Store, username: string, email: string, isStaff: bool, isSuperuser: bool, groups: seq<string>)
    requires username in s.users ==> s.users[username].email == email
    ensures Settled(Handle(s, username, email, false, isStaff, isSuperuser, groups).store,
                    username, email, isStaff, isSuperuser, groups)
  {
    EmailKept(s, username, email, isStaff, isSuperuser, groups);
    FlagsSynced(s, username, email, isStaff, isSuperuser, groups);
    MembershipSynced(s, username, email, isStaff, isSuperuser, groups);
  }

  /** A user already in the wanted state is left exactly as it is: the
      call finds it, writes no "Setting" line, warns about the unknown
      names and adds and removes no group. */
  lemma AlreadySynced(t: Store, username: string, email: string, isStaff: bool, isSuperuser: bool, groups: seq<string>)
    requires Settled(t, username, email, isStaff, isSuperuser, groups)
    ensures Handle(t, username, email, false, isStaff, isSuperuser, groups)
            == Reply(t, [FoundExistingUser(username)] + ResolveGroups(t.groups, groups).warnings
                        + [NotAddingToAnyGroups(username), NotRemovingFromAnyGroups(username)], None)
  {
    SyncOutcome(t, username, email, isStaff, isSuperuser, groups);
    SettledReply(t, username, email, isStaff, isSuperuser, groups);
  }

  /** The closed form of a call on a user already in the wanted state
      gives back the store itself, with only the found line, the
      warnings and the two "Not ..." lines. */
  lemma SettledReply(t: Store, username: string, email: string, isStaff: bool, isSuperuser: bool, groups: seq<string>)
    requires Settled(t, username, email, isStaff, isSuperuser, groups)
    ensures var prior := Prior(t, username, email);
      var flags := Flags(prior.0, username, isStaff, isSuperuser);
      var lookup := ResolveGroups(t.groups, groups);
      var d := DiffOf(prior.0.groups, lookup.found);
      && t.(users := t.users[username := flags.0.(groups := ApplyDiff(prior.0.groups, d))]) == t
      && prior.1 + flags.1 + lookup.warnings + DiffLines(username, d)
         == [FoundExistingUser(username)] + lookup.warnings
            + [NotAddingToAnyGroups(username), NotRemovingFromAnyGroups(username)]
  {
    var u := t.users[username];
    SettledParts(t, username, email, isStaff, isSuperuser, groups);
    assert t.users[username := u] == t.users;
    assert [FoundExistingUser(username)] + [] == [FoundExistingUser(username)];
  }


  /** The pieces of a call on a settled user: the user as stored after
      "Found", no flag line, and an empty membership diff whose lines are
      the two "Not ..." lines. */
  lemma SettledParts(t: Store, username: string, email: string, isStaff: bool, isSuperuser: bool, groups: seq<string>)
    requires Settled(t, username, email, isStaff, isSuperuser, groups)
    ensures var u := t.users[username];
      var found := ResolveGroups(t.groups, groups).found;
      && Prior(t, username, email) == (u, [FoundExistingUser(username)])
      && Flags(u, username, isStaff, isSuperuser) == (u, [])
      && DiffOf(u.groups, found) == Diff([], [])
      && ApplyDiff(u.groups, Diff([], [])) == u.groups
      && DiffLines(username, Diff([], [])) == [NotAddingToAnyGroups(username), NotRemovingFromAnyGroups(username)]
  {
    var u := t.users[username];
    var found := ResolveGroups(t.groups, groups).found;
    DiffOfSettled(u.groups, found);
  }

  /** Running the same call again leaves the store as the first run left
      it. After a successful non-remove run the second run finds the
      user, writes no "Setting" line and adds and removes no group: its
      log is exactly "Found", the warnings and the two "Not ..." lines.
      After a removal it skips. */
  lemma Idempotent(s: Store, username: string, email: string, isRemove: bool, isStaff: bool, isSuperuser: bool, groups: seq<string>)
    ensures var r1 := Handle(s, username, email, isRemove, isStaff, isSuperuser, groups);
      var r2 := Handle(r1.store, username, email, isRemove, isStaff, isSuperuser, groups);
      && r2.store == r1.store
      && (r1.error.None? && !isRemove ==>
            && r2.error.None?
            && (forall c :: Setting(username, c) !in r2.log)
            && NotAddingToAnyGroups(username) in r2.log
            && NotRemovingFromAnyGroups(username) in r2.log)
      && (r1.error.None? && !isRemove ==>
            r2 == Reply(r1.store, [FoundExistingUser(username)] + ResolveGroups(r1.store.groups, groups).warnings
                                  + [NotAddingToAnyGroups(username), NotRemovingFromAnyGroups(username)], None))
      && (r1.error.None? && isRemove ==> r2 == Reply(r1.store, [UserNotFound(username)], None))
  {
    var r1 := Handle(s, username, email, isRemove, isStaff, isSuperuser, groups);
    if !isRemove && r1.error.None? {
      RunSettles(s, username, email, isStaff, isSuperuser, groups);
      SettledIsFixed(r1.store, username, email, isStaff, isSuperuser, groups);
      AlreadySynced(r1.store, username, email, isStaff, isSuperuser, groups);
    } else if !isRemove {
      assert r1.store == s;
    }
  }

  /** The second run on a settled user changes nothing and writes only
      the "Found", warning and "Not adding"/"Not removing" lines. */
  lemma SettledIsFixed(t: Store, username: string, email: string, isStaff: bool, isSuperuser: bool, groups: seq<string>)
    requires Settled(t, username, email, isStaff, isSuperuser, groups)
    ensures var r := Handle(t, username, email, false, isStaff, isSuperuser, groups);
      && r.store == t
      && r.error.None?
      && (forall c :: Setting(username, c) !in r.log)
      && NotAddingToAnyGroups(username) in r.log
      && NotRemovingFromAnyGroups(username) in r.log
  {
    AlreadySynced(t, username, email, isStaff, isSuperuser, groups);
    var warnings := ResolveGroups(t.groups, groups).warnings;
    assert forall c :: Setting(username, c) !in warnings;
  }

  /** After a successful non-remove call the user's membership list has no
      duplicate when it had none before. */
  lemma MembershipNoDup(s: Store, username: string, email: string, isStaff: bool, isSuperuser: bool, groups: seq<string>)
    requires username in s.users ==> s.users[username].email == email && NoDup(s.users[username].groups)
    ensures NoDup(Handle(s, username, email, false, isStaff, isSuperuser, groups).store.users[username].groups)
  {
    SyncOutcome(s, username, email, isStaff, isSuperuser, groups);
    ApplyDiffReachesWant(Prior(s, username, email).0.groups, ResolveGroups(s.groups, groups).found);
  }

  /** Every branch keeps the store referentially intact. */
  lemma HandleKeepsConsistent(s: Store, username: string, email: string, isRemove: bool, isStaff: bool, isSuperuser: bool, groups: seq<string>)
    requires Consistent(s)
    ensures Consistent(Handle(s, username, email, isRemove, isStaff, isSuperuser, groups).store)
  {
    if !isRemove && !(username in s.users && s.users[username].email != email) {
      SyncKeepsConsistent(s, username, email, isStaff, isSuperuser, groups);
    }
  }

  /** A successful non-remove call keeps the store referentially intact:
      the row it writes points only at existing groups, each once, and
      no other row changes. */
  lemma SyncKeepsConsistent(s: Store, username: string, email: string, isStaff: bool, isSuperuser: bool, groups: seq<string>)
    requires Consistent(s)
    requires username in s.users ==> s.users[username].email == email
    ensures Consistent(Handle(s, username, email, false, isStaff, isSuperuser, groups).store)
  {
    var t := Handle(s, username, email, false, isStaff, isSuperuser, groups).store;
    assert t.groups == s.groups && t.registry == s.registry;
    assert NoDup(t.users[username].groups) && forall g :: g in t.users[username].groups ==> g in s.groups by {
      MembershipSynced(s, username, email, isStaff, isSuperuser, groups);
      MembershipNoDup(s, username, email, isStaff, isSuperuser, groups);
    }
    forall u | u in t.users
      ensures NoDup(t.users[u].groups) && forall g :: g in t.users[u].groups ==> g in t.groups
    {
      if u != username {
        OtherUsersUntouched(s, username, email, false, isStaff, isSuperuser, groups);
        assert u in t.users - {username};
        assert t.users[u] == s.users[u];
      }
    }
  }
}

=== FILE: results.dfy ===
/** Failure-carrying values for the reconcilers' lookups. */
module Results {

  datatype Option<+T> = None | Some(value: T)

  /** Either a value or the error a lookup raised. */
  datatype Result<+T, +E> = Success(value: T) | Failure(error: E)
}

=== FILE: scenarios.dfy ===
/**
 Worked examples: single invocations of both commands on small stores,
 with the exact store and lines they end with.
 */
module Scenarios {
  import opened Results
  import opened Lists
  import opened Identity
  import ManageGroup
  import ManageUser

  /** A registry that knows one model with one permission. */
  function OnePermission(app: string, model: string, code: string, p: Permission): Registry {
    map[ModelKey(app, model) := map[code := p]]
  }

  /** `manage_group <name> -p app:model:code` on a store without the group
      creates it holding the one permission the option names. */
  lemma CreateWithOnePermission(validName: string -> bool, name: string, app: string, model: string, code: string, p: Permission)
    requires validName(name)
    requires ':' !in app && ':' !in model && ':' !in code
    ensures var reg := OnePermission(app, model, code, p);
      ManageGroup.Handle(Store(reg, map[], map[]), validName, name, false, [app + ":" + model + ":" + code])
        == Reply(Store(reg, map[name := [p]], map[]),
                 [ManageGroup.CreatedGroup(name), ManageGroup.AddingPermission(p, name),
                  ManageGroup.NoPermissionsToRemove(name)],
                 None)
  {
    var reg := OnePermission(app, model, code, p);
    var option := app + ":" + model + ":" + code;
    var s := Store(reg, map[], map[]);
    OptionResolves(app, model, code, p);
    SingleAdd(p);
    assert ManageGroup.DiffLines(Diff([p], []), name)
      == [ManageGroup.AddingPermission(p, name), ManageGroup.NoPermissionsToRemove(name)] by {
      assert [p][1..] == [];
      assert ManageGroup.AddingLines([p], name) == [ManageGroup.AddingPermission(p, name)];
    }
  }

  /** An option written in the documented format resolves, alone, to the
      one permission of the registry. */
  lemma OptionResolves(app: string, model: string, code: string, p: Permission)
    requires ':' !in app && ':' !in model && ':' !in code
    ensures var reg := OnePermission(app, model, code, p);
      var option := app + ":" + model + ":" + code;
      && ManageGroup.Resolve(reg, option) == Success(p)
      && ManageGroup.ResolveAll(reg, [option]) == Success([p])
  {
    var reg := OnePermission(app, model, code, p);
    var option := app + ":" + model + ":" + code;
    ManageGroup.ParseSpecFormat(option, ManageGroup.PermissionSpec(app, model, code));
    assert ManageGroup.Resolve(reg, option) == Success(p);
    assert [option][1..] == [];
    assert ManageGroup.ResolveAll(reg, []) == Success([]);
    assert [p] + [] == [p];
  }

  /** The same option given twice: both copies are compared only with
      what the group had, so "Adding" is written twice, while the group
      ends up holding the permission once. */
  lemma RepeatedOption(validName: string -> bool, name: string, app: string, model: string, code: string, p: Permission)
    requires validName(name)
    requires ':' !in app && ':' !in model && ':' !in code
    ensures var reg := OnePermission(app, model, code, p);
      var option := app + ":" + model + ":" + code;
      ManageGroup.Handle(Store(reg, map[], map[]), validName, name, false, [option, option])
        == Reply(Store(reg, map[name := [p]], map[]),
                 [ManageGroup.CreatedGroup(name), ManageGroup.AddingPermission(p, name),
                  ManageGroup.AddingPermission(p, name), ManageGroup.NoPermissionsToRemove(name)],
                 None)
  {
    var reg := OnePermission(app, model, code, p);
    var option := app + ":" + model + ":" + code;
    OptionTwiceResolves(app, model, code, p);
    DoubledAdd(p);
    assert ManageGroup.DiffLines(Diff([p, p], []), name)
      == [ManageGroup.AddingPermission(p, name), ManageGroup.AddingPermission(p, name),
          ManageGroup.NoPermissionsToRemove(name)] by {
      assert [p, p][1..] == [p];
      assert [p][1..] == [];
      assert ManageGroup.AddingLines([p], name) == [ManageGroup.AddingPermission(p, name)];
    }
  }

  /** The same option twice resolves to the permission twice. */
  lemma OptionTwiceResolves(app: string, model: string, code: string, p: Permission)
    requires ':' !in app && ':' !in model && ':' !in code
    ensures var option := app + ":" + model + ":" + code;
      ManageGroup.ResolveAll(OnePermission(app, model, code, p), [option, option]) == Success([p, p])
  {
    var option := app + ":" + model + ":" + code;
    OptionResolves(app, model, code, p);
    assert [option, option][1..] == [option];
    assert [p] + [p] == [p, p];
  }

  /** A doubled element is added once. */
  lemma DoubledAdd<T(!new)>(x: T)
    ensures DiffOf([], [x, x]) == Diff([x, x], [])
    ensures ApplyDiff([], Diff([x, x], [])) == [x]
  {
    WithoutNothing([x, x]);
    assert [x, x][1..] == [x];
    assert [x][1..] == [];
    assert [] + [x] == [x];
    assert AddAll([], [x, x]) == AddAll([x], [x]);
    assert AddAll([x], [x]) == AddAll([x], []);
    WithoutNothing([x]);
  }

  /** `manage_user <username> <email> --staff -g <group>` for a new user
      and an existing group: the user is created with an unusable
      password, the email and the staff flag are set, the superuser flag
      is already off, and the user joins the group. */
  lemma CreateStaffUser(s: Store, username: string, email: string, group: string)
    requires username !in s.users && group in s.groups && email != ""
    ensures ManageUser.Handle(s, username, email, false, true, false, [group])
      == Reply(s.(users := s.users[username := User(email, false, true, false, [group])]),
               [ManageUser.CreatedUser(username), ManageUser.Setting(username, ManageUser.SetEmail(email)),
                ManageUser.Setting(username, ManageUser.SetStaff(true)),
                ManageUser.AddingToGroup(username, group), ManageUser.NotRemovingFromAnyGroups(username)],
               None)
  {
    ManageUser.SyncOutcome(s, username, email, true, false, [group]);
    CreatedStaffRecord(s, username, email);
    assert ManageUser.ResolveGroups(s.groups, [group]) == ManageUser.Lookup([group], []) by {
      assert [group][1..] == [];
    }
    SingleAdd(group);
    assert ManageUser.DiffLines(username, Diff([group], []))
      == [ManageUser.AddingToGroup(username, group), ManageUser.NotRemovingFromAnyGroups(username)] by {
      assert [group][1..] == [];
      assert ManageUser.AddingLines(username, [group]) == [ManageUser.AddingToGroup(username, group)];
    }
  }

  /** The record and lines of a new user with a non-blank email once the
      staff flag is switched on. */
  lemma CreatedStaffRecord(s: Store, username: string, email: string)
    requires username !in s.users && email != ""
    ensures ManageUser.Prior(s, username, email)
      == (User(email, false, false, false, []),
          [ManageUser.CreatedUser(username), ManageUser.Setting(username, ManageUser.SetEmail(email))])
    ensures ManageUser.Flags(User(email, false, false, false, []), username, true, false)
      == (User(email, false, true, false, []), [ManageUser.Setting(username, ManageUser.SetStaff(true))])
  {
    var created := User(email, false, false, false, []);
    assert ManageUser.Assign(ManageUser.NewUser(), ManageUser.SetEmail(email)) == created;
    assert [ManageUser.CreatedUser(username)] + [ManageUser.Setting(username, ManageUser.SetEmail(email))]
      == [ManageUser.CreatedUser(username), ManageUser.Setting(username, ManageUser.SetEmail(email))];
    var staff := ManageUser.MaybeUpdate(created, username, ManageUser.SetStaff(true));
    assert staff == (User(email, false, true, false, []), [ManageUser.Setting(username, ManageUser.SetStaff(true))]);
    assert ManageUser.MaybeUpdate(staff.0, username, ManageUser.SetSuperuser(false)) == (staff.0, []);
    assert staff.1 + [] == staff.1;
  }

  /** A single element is added to an empty relation. */
  lemma SingleAdd<T(!new)>(x: T)
    ensures DiffOf([], [x]) == Diff([x], [])
    ensures ApplyDiff([], Diff([x], [])) == [x]
  {
    WithoutNothing([x]);
    assert [x][1..] == [];
    assert [] + [x] == [x];
    assert AddAll([], [x]) == AddAll([x], []);
  }
}

=== FILE: strings.dfy ===
/**
 Python's `str.split(sep)` with an explicit one-character separator, its
 inverse `sep.join(fields)`, and the facts that tie the two together.
 */
module Strings {

  /** `sep.join(fields)`. */
  function Join(fields: seq<string>, sep: char): string
  {
    if |fields| == 0 then ""
    else if |fields| == 1 then fields[0]
    else fields[0] + [sep] + Join(fields[1..], sep)
  }

  /** `s.split(sep)`: the maximal separator-free runs of `s`, including the
      empty ones next to a leading, trailing or doubled separator, so the
      result is never empty (`"".split(":") == [""]`). */
  function Split(s: string, sep: char): (r: seq<string>)
    ensures |r| >= 1
    ensures forall i :: 0 <= i < |r| ==> sep !in r[i]
    decreases |s|
  {
    if |s| == 0 then [""]
    else
      var rest := Split(s[1..], sep);
      if s[0] == sep then [""] + rest
      else [[s[0]] + rest[0]] + rest[1..]
  }

  /** How many times `c` occurs in `s`. */
  function Count(s: string, c: char): nat
  {
    if |s| == 0 then 0
    else (if s[0] == c then 1 else 0) + Count(s[1..], c)
  }

  /** Splitting and joining again gives back the input. */
  lemma {:induction false} JoinSplit(s: string, sep: char)
    ensures Join(Split(s, sep), sep) == s
    decreases |s|
  {
    if |s| > 0 {
      var rest := Split(s[1..], sep);
      JoinSplit(s[1..], sep);
      if s[0] == sep {
        assert ([""] + rest)[1..] == rest;
      } else {
        var r := [[s[0]] + rest[0]] + rest[1..];
        if |rest| > 1 {
          assert r[1..] == rest[1..];
          assert Join(rest, sep) == rest[0] + [sep] + Join(rest[1..], sep);
        }
        assert s == [s[0]] + s[1..];
      }
    }
  }

  /** Joining separator-free fields and splitting again gives back the
      fields: the field list is determined by the string. */
  lemma {:induction false} SplitJoin(fields: seq<string>, sep: char)
    requires |fields| >= 1
    requires forall i :: 0 <= i < |fields| ==> sep !in fields[i]
    ensures Split(Join(fields, sep), sep) == fields
    decreases |fields|, |fields[0]|
  {
    var f := fields[0];
    if |f| > 0 {
      // peel one character off the first field
      var shorter := [f[1..]] + fields[1..];
      assert shorter[1..] == fields[1..];
      assert forall i :: 0 <= i < |shorter| ==> sep !in shorter[i];
      SplitJoin(shorter, sep);
      var s := Join(fields, sep);
      assert s == [f[0]] + Join(shorter, sep) by {
        if |fields| > 1 {
          assert f == [f[0]] + f[1..];
        }
      }
      assert s[1..] == Join(shorter, sep);
      assert [f[0]] + f[1..] == f;
    } else if |fields| > 1 {
      assert forall i :: 0 <= i < |fields[1..]| ==> sep !in fields[1..][i];
      SplitJoin(fields[1..], sep);
      var s := Join(fields, sep);
      assert s == [sep] + Join(fields[1..], sep);
      assert s[1..] == Join(fields[1..], sep);
      assert [""] + fields[1..] == fields;
    }
  }

  /** `s.split(sep)` has one more field than `s` has separators. */
  lemma {:induction false} SplitCount(s: string, sep: char)
    ensures |Split(s, sep)| == Count(s, sep) + 1
    decreases |s|
  {
    if |s| > 0 {
      SplitCount(s[1..], sep);
    }
  }
}
